=== FILE: README.md ===
# Token lifecycle of an Express authentication service, in Dafny

This project models the token lifecycle of a small Node.js authentication
service. The service has four handlers: Register, Login, RefreshToken and Logout.
It issues access tokens (15 minutes) and refresh tokens (7 days) as pairs. It
keeps each user's refresh tokens in the user document, and it uses a Redis
cache both as a positive cache of each user's last tokens and as a blacklist of
revoked tokens. `middleware/auth.js` defines an authentication guard that
checks the blacklist, then the signature, then the user. No route in
`routes/user.js` mounts it, and `index.js` mounts the user router behind the
rate limiter only, so in this code base the guard protects no route and
`/logout` is unauthenticated. The guard is modelled on its own.

Every handler is a pure function from the state and a request to a response and
the next state. The state is the user store plus the cache. The request carries
the clock, the id and salt a new document would get, and the set of external
calls that throw. The model is not compiled or run; its properties are proved
by the Dafny verifier.

Modules, one per component:

- `Wrappers`: `Option` and `Result`.
- `Text`: the string operations the code relies on.
  - JavaScript's `split`/`join` on one character.
  - `split(' ')[1]`.
  - The escaping and decimal numerals of the token encoding.
- `Faults`: the call sites that can throw. A request names the set of sites
  that throw during it. This set decides every success and partial failure,
  including a failure between the two writes of one cache helper.
- `Tokens` (`config/token.js`): the issuer.
  - Two secrets, each with the fallback the code uses when its environment
    variable is unset or empty.
  - Two lifetimes.
  - Signing and verification over a compact token form. The MAC is a function
    parameter.
- `Cache` (`services/redis.js`): a map from key to (value, expiry).
  - `cacheTokens`, `blacklistTokens`, `isTokenBlacklisted` and `getCachedToken`,
    with the code's key families and TTLs.
- `Users`: the parts of Mongoose and bcrypt the controller uses.
  - `findOne({email})` and `findById` return the first match in insertion order.
  - `create`, `save`, and `filter` on the token list.
  - `bcrypt.hash`/`compare` over a key-derivation parameter.
- `Sessions` (`controller/user.js`): the four handlers. Each is split into its
  source stages so that every stage has its own contract.
- `Guard` (`middleware/auth.js`): the guard, as a decision `Next(profile)` or
  `Deny(status, msg)`.
- `Lifecycle`: properties that span requests.
  - The store invariant: unique ids, unique emails, at most five refresh tokens
    per user. Every handler keeps it.
  - Rotation and replay of refresh tokens.
  - Revocation by logout.
  - End-to-end scenarios from an empty store.

Facts about the code that the model keeps:

- Logout blacklists tokens only when the user id finds a user and the header
  yields a non-empty second field (`if (accessToken)`): the header "Bearer "
  yields the empty string and blacklists nothing.
- Logout answers 500 when the lookup, the save or a blacklist write throws.
  Otherwise it answers 200, also for an unknown or absent user id.
- Tokens carry the claim `id` and the registered claims `iat` and `exp`, and
  nothing else. RefreshToken reads `decoded.userId` (see Findings).
- The cache keys are `access_token:<id>`, `refresh_token:<id>`,
  `blacklist:access_token:<token>` and `blacklist:refresh_token:<token>`.
- The only guard against a duplicate email the controller shows is the
  pre-check in Register.
- A write that throws is taken to have applied nothing (see Left out); a
  handler's earlier writes stay when a later call throws.

The token encoding is deterministic. `jwt.sign({ id })` adds only `iat` and
`exp`, so two pairs issued for one user within the same second are identical
(`Tokens.SameSecondSamePair`). As written, RefreshToken refuses every issued
token (see Findings), so this matters only for the handler with the lookup by
`id` (`Sessions.RefreshTokenIntended`). With that lookup, a refresh in the same
second as the token's issue hands back the presented token. The new list still holds that
token, and the same step blacklists it for 24 hours
(`Lifecycle.SameSecondRefreshReissuesToken`). Replay is refused only when
rotation produced a different token (`Lifecycle.RefreshReplayRejected`).

## Model

| member | source | states |
|---|---|---|
| Text.Split | middleware/auth.js:18 | `split(sep)` gives at least one piece, no piece contains the separator, and there is exactly one piece iff the separator does not occur |
| Text.SplitJoin | middleware/auth.js:18 | splitting the join of separator-free pieces gives the pieces back |
| Text.JoinSplit | middleware/auth.js:18 | joining the pieces of any string with the separator gives the string back |
| Text.SecondField | controller/user.js:165 | `split(' ')[1]` is defined iff the string contains a space, and it holds no space |
| Text.SecondFieldAfterScheme | middleware/auth.js:18 | for a scheme and a token without spaces, `(scheme + " " + token).split(' ')[1]` is the token |
| Tokens.SecretOr | config/token.js:4-5 | a set, non-empty environment variable is the secret; otherwise the fallback is |
| Tokens.DefaultSecretsDiffer | config/token.js:4-5 | with neither variable set, the access and refresh secrets differ |
| Tokens.GenerateTokens | config/token.js:7-21 | both tokens are returned iff neither signing call throws; an error names the signing call that threw, so one token is never returned without the other |
| Tokens.Verify | config/token.js:23-35 | a payload is returned only while the clock is before its `exp` |
| Tokens.Sign | config/token.js:9-10 | `jwt.sign`: the signing input, a '.', and the escaped MAC tag of the signing input; its inverse is stated by Tokens.DecodeSign and Tokens.DecodeSound |
| Tokens.VerifyAccessToken | config/token.js:23-35 | whatever `verifyAccessToken` accepts is a token signed with the access secret, and the clock is before its `exp` |
| Tokens.VerifyRefreshToken | config/token.js:37-49 | whatever `verifyRefreshToken` accepts is a token signed with the refresh secret, and the clock is before its `exp` |
| Tokens.VerifiedIsSigned | config/token.js:25 | any payload `jwt.verify` returns is the payload the presented token was signed over |
| Tokens.DecodeSign | config/token.js:9-10 | decoding a signed token recovers its signing input, its signature and its payload |
| Tokens.DecodeSound | config/token.js:25 | conversely, any string that decodes is exactly its signing input, a '.' and its escaped tag, and the signing input is the layout of the payload read back, so verification cannot accept a string that was not produced by signing |
| Tokens.VerifyExactlySigned | config/token.js:23-49 | verification returns payload `p` iff the token is `p` signed with that secret and `p` has not expired |
| Tokens.SignInjective | config/token.js:9-10 | different payloads give different tokens |
| Tokens.SignedHasNoSpace | middleware/auth.js:18 | a signed token contains no space, so `split(' ')` keeps it whole |
| Tokens.GeneratedTokensVerify | config/token.js:7-49 | each issued token verifies under its own secret to `{ id: userId }` before its expiry (15 min / 7 days) and to nothing from then on |
| Tokens.CrossKindRejected | config/token.js:23-49 | when the secrets differ and the MAC separates keys, an access token never passes refresh verification and a refresh token never passes access verification |
| Tokens.SharedSecretAcceptsRefreshAsAccess | config/token.js:4-5 | when both variables hold the same secret, a refresh token passes access verification for its whole seven days |
| Tokens.SameSecondSamePair | config/token.js:9-10 | two issues for one user in the same second give the same pair |
| Tokens.LaterIssueDiffers | config/token.js:9-10 | issues for one user in different seconds give different access tokens and different refresh tokens |
| Tokens.ClaimValue | middleware/auth.js:41 | reading a claim gives nothing iff no claim has that name, and otherwise the value of the last claim with that name |
| Cache.Get | services/redis.js:92 | a GET gives a value iff the key is stored and unexpired, and then the stored value |
| Cache.Set | services/redis.js:49-51 | after `SET key value EX ttl` the key reads `value` until `now + ttl` and nothing from then on; no other key changes |
| Cache.CacheTokens | services/redis.js:47-66 | success iff neither SET throws; a throw in the first SET changes nothing; a throw in the second SET keeps the first write and leaves every other key, the refresh key included, as it was; the access key reads the token for 15 minutes once its SET succeeds, and the refresh key for 24 hours on success; no other key changes |
| Cache.BlacklistTokens | services/redis.js:69-87 | success iff neither SET throws; a throw in the first SET changes nothing; a throw in the second SET keeps the first write and leaves every other key, the refresh blacklist key included, as it was; the access blacklist key is marked for 15 minutes once its SET succeeds, and the refresh key for 24 hours on success; no other key changes |
| Cache.IsTokenBlacklisted | services/redis.js:90-102 | throws iff the GET throws, never reading that as "not blacklisted"; otherwise true iff the blacklist key of that kind is unexpired |
| Cache.GetCachedToken | services/redis.js:105-117 | throws iff the GET throws; otherwise gives the stored value iff the user's key of that kind is unexpired |
| Cache.KeyFamiliesDisjoint | services/redis.js:49-76 | no positive-cache key equals a blacklist key |
| Cache.CachedKeyInjective | services/redis.js:49-54 | equal positive-cache keys have the same user and kind |
| Cache.BlacklistKeyInjective | services/redis.js:71-76 | equal blacklist keys have the same token and kind |
| Cache.BlacklistedUntilExpiry | services/redis.js:69-102 | after a successful blacklisting, the access token reads as blacklisted for exactly 15 minutes and the refresh token for exactly 24 hours |
| Cache.CachedTokensReadBack | services/redis.js:47-117 | after a successful caching, `getCachedToken` reads back the access token for 15 minutes and the refresh token for 24 hours, then nothing |
| Cache.BlacklistKeepsCachedReads | services/redis.js:69-117 | blacklisting never changes what `getCachedToken` reads |
| Cache.CachingKeepsBlacklistReads | services/redis.js:47-102 | caching tokens never changes what `isTokenBlacklisted` reads |
| Text.Falsy | controller/user.js:61 | JavaScript `!x` on an optional string: true for `undefined` and for the empty string |
| Text.Interpolate | services/redis.js:76 | `${x}` in a template literal: the string itself, or "undefined" when it is absent |
| Users.ComparePassword | controller/user.js:72 | `bcrypt.compare`: the password, hashed with the stored cost and salt, gives the stored digest |
| Users.HashPassword | controller/user.js:17 | a hash made with cost 10 and the drawn salt compares equal to the password it was made from |
| Users.FindByEmail | controller/user.js:19 | nothing is found iff no stored user has that email; a result is a stored user with that email |
| Users.FindById | controller/user.js:128 | nothing is found iff the id is undefined or no stored user has it; a result is a stored user with that id |
| Users.Create | controller/user.js:25-30 | the insert fails iff the `_id` is taken; otherwise the document is appended and found by its id, and every other id finds what it found before |
| Users.Save | controller/user.js:35 | the records with the saved id become the document and every other record stays; an existing id then finds the document and other ids find what they found before |
| Users.SaveAfterCreate | controller/user.js:25-35 | saving a document right after creating it replaces the appended record and nothing else |
| Users.Without | controller/user.js:136 | `filter(t => t !== token)` leaves no copy of `token`, is never longer than the list, and leaves a list without the token unchanged |
| Users.WithoutShrinks | controller/user.js:136 | removing a token that is present makes the list strictly shorter |
| Users.WithoutCons | controller/user.js:136 | the filter keeps the head of the list iff it is not the token, in front of the filtered rest |
| Users.WithoutAppend | controller/user.js:136 | the filter keeps order: filtering a concatenation is the concatenation of the filtered parts |
| Users.WithoutCounts | controller/user.js:136 | every other token keeps its number of copies, and the removed token has none |
| Users.WithoutMembership | controller/user.js:162 | a token is in the filtered list iff it was in the list and is not the removed token |
| Sessions.Register | controller/user.js:8-55 | missing fields give 400 and change nothing; every 400 leaves the state unchanged; a throwing hash gives 500 "Failed to register" and changes nothing; a taken email gives 400 and changes nothing; the state changes only once the lookup and create succeed for a new email and id, and then by appending exactly the new user with the hashed password; 201 iff fields are present, the email and id are new and no call throws; on 201 the store gains exactly the new user, holding the hashed password and the returned refresh token as its only token |
| Sessions.RegisterHashed | controller/user.js:19-54 | a taken email gives 400 and changes nothing; a throwing lookup, a throwing create or a taken id gives 500 "Failed to register" and changes nothing; once create succeeds, a throwing sign or save gives 500 over the store with the created user and an empty token list, and otherwise the store holds the user with the generated refresh token and the cache is what `cacheTokens` leaves; 201 iff the lookup, create, sign, save and cache calls succeed and the email and id are new; on 201 the new user is appended |
| Sessions.RegisterCreated | controller/user.js:32-54 | 201 iff signing, saving and caching succeed, otherwise 500; a throwing sign or save leaves the state unchanged; once both succeed, the store holds the created user with the new refresh token as its only token and the cache is what `cacheTokens` leaves, even when a SET throws; on 201 the returned tokens are the generated pair |
| Sessions.PushCapped | controller/user.js:80-84 | the new token is last; the oldest token is dropped iff the list already held five or more; the result holds at most five iff the list did |
| Sessions.Login | controller/user.js:57-105 | missing credentials give 400; every 400 leaves the state unchanged; a throwing lookup, or a throwing password compare for a found user, gives 500 "Failed to login" and changes nothing; 200 iff credentials are present, the email is found, the password matches and no call throws; the state changes only after matching credentials and a successful sign and save, and then the store holds the user with the capped push of the generated refresh token and the cache is what `cacheTokens` leaves, whatever happens after; on 200 the body is the user's profile and the generated pair |
| Sessions.LoginVerified | controller/user.js:78-104 | 200 iff signing, saving, caching and the mail succeed, otherwise 500; a throwing sign or save leaves the state unchanged; once both succeed the store holds the capped push of the generated refresh token and the cache is what `cacheTokens` leaves, so a throwing SET or mail answers 500 over those writes; on 200 the body is the profile and the generated pair |
| Sessions.RefreshWith | controller/user.js:107-153 | only 200 or 401; a missing token gives 401 "required" unchanged; a blacklisted token gives 401 "revoked" unchanged; a throwing blacklist read, a token that does not verify, and a verified token without a holder that holds it each give 401 "Invalid refresh token" unchanged; the state changes only when the token is present, not blacklisted, verifies and has a holder that holds it; 200 iff the token is present, not blacklisted, verifies, its holder is found and holds it, and no call throws; on 200 the holder's list loses every copy of the token and ends with the new one |
| Sessions.RefreshHolder | controller/user.js:128-132 | a holder is found iff the lookup does not throw, the claim names a stored user, and that user's list holds the token |
| Sessions.RefreshRotate | controller/user.js:134-152 | 200 iff signing, saving, caching and blacklisting succeed, otherwise 401 "Invalid refresh token"; a throwing sign or save leaves the state unchanged; once both succeed the list is rotated, and the cache is what `cacheTokens` leaves, followed by `blacklistTokens` unless a caching SET threw; on 200 the answer is the generated pair |
| Sessions.RefreshToken | controller/user.js:107-153 | the handler as written: a success needs a verifying token whose `userId` claim names a stored user holding the token |
| Sessions.RefreshTokenIntended | controller/user.js:128 | the handler with the lookup by `id`: a success is for a stored user whose id is the token's `id` claim and who holds the token |
| Sessions.Logout | controller/user.js:155-178 | only 200 or 500; an unknown user id gives 200 and changes nothing; 200 iff the lookup does not throw and either no user is found, or the save succeeds and the header has no second field, or an empty one, or both blacklist writes succeed; when the lookup and save succeed for a stored user, the store loses the presented refresh token from that user and the cache is what `blacklistTokens` of a non-empty second field leaves, or unchanged when there is no second field or an empty one; the state changes in no other case |
| Guard.BearerToken | middleware/auth.js:8-18 | a token is taken iff the header exists and starts with "Bearer ", and it holds no space |
| Guard.Authenticate | middleware/auth.js:6-73 | a missing or non-Bearer header gives 401 "No token provided"; a blacklisted token gives 401 "Token has been revoked"; a throwing blacklist read gives 500; a token that does not verify gives 401 "Invalid token"; after verification a throwing lookup gives 500 and an unknown id 401 "User not found"; 500 only when the cache read or the lookup throws; the request passes iff the token is not blacklisted, verifies under the access secret and names a stored user, and then the attached profile is that of the user `findById` returns for the token's `id` claim |
| Guard.BearerTokenOfHeader | middleware/auth.js:9-18 | the header "Bearer <t>" hands the guard exactly `t` for any `t` without a space |
| Lifecycle.Valid | controller/user.js:19-84 | the store invariant: ids unique, emails unique (by the pre-check in Register), and at most five refresh tokens per user (by the cap in Login) |
| Lifecycle.RegisterKeepsValid | controller/user.js:8-55 | Register keeps ids unique, emails unique and every list at five or fewer, including after a failure that follows `User.create` |
| Lifecycle.LoginKeepsValid | controller/user.js:57-105 | Login keeps the store invariant; dropping the oldest token keeps every list at five or fewer |
| Lifecycle.RefreshKeepsValid | controller/user.js:107-153 | RefreshToken, with either claim lookup, keeps the store invariant |
| Lifecycle.LogoutKeepsValid | controller/user.js:155-178 | Logout keeps the store invariant |
| Lifecycle.LoginCredentialErrorsIdentical | controller/user.js:66-76 | an unknown email and a wrong password get the same 400 response and change nothing |
| Lifecycle.LoginMailFailureKeepsWrites | controller/user.js:85-103 | when only the notification mail throws, the answer is 500, yet the store and cache are exactly what a successful login leaves |
| Lifecycle.RegisterTokens | controller/user.js:32-49 | the tokens a successful registration returns are the pair generated for the new id at that time, and the cache holds them |
| Lifecycle.RefreshAsWrittenRejectsIssuedTokens | controller/user.js:128-132 | as written, a refresh token issued by `generateTokens` is always refused with 401 and nothing changes |
| Lifecycle.RefreshIntendedRotatesRegisteredToken | controller/user.js:128-148 | with the lookup by `id`, a registration's refresh token, presented later within its lifetime, answers 200 with a different token, which becomes the user's only token |
| Lifecycle.RefreshSuccessRevokes | controller/user.js:134-141 | after a successful refresh the presented token reads as revoked in both blacklist families until they expire; the holder's list ends with the new token and holds the old one iff the new one equals it |
| Lifecycle.RefreshReplayRejected | controller/user.js:116-132 | once a token is rotated to a different one, presenting it again is refused with 401 at any time |
| Lifecycle.SameSecondRefreshReissuesToken | controller/user.js:134-141 | a refresh in the same second as the token's issue returns the presented token, and the holder's list still holds it |
| Lifecycle.LogoutDropsRefreshToken | controller/user.js:160-163 | a successful logout of a stored user removes every copy of the presented refresh token from that user's list |
| Lifecycle.LogoutBlacklistsBearer | controller/user.js:165-168 | a successful logout of a stored user with header "Bearer <a>" leaves the cache exactly as blacklisting `a` and the presented refresh token leaves it, and that blacklisting succeeds |
| Lifecycle.LogoutRevokesAccessToken | controller/user.js:165-168 | after a logout carrying "Bearer <a>", the guard refuses `a` as revoked for 15 minutes |
| Lifecycle.RegisteredUserPassesGuard | middleware/auth.js:18-60 | in the state a fresh registration leaves, the guard admits the issued access token at any time before it expires, attaching the new user's id, name and email |
| Lifecycle.GuardAdmitsRegisteredUser | middleware/auth.js:18-60 | a user who just registered passes the guard with the returned access token for its whole 15 minutes, with their profile attached |
| Lifecycle.GuardRejectsRefreshToken | middleware/auth.js:31-39 | while the secrets differ and the MAC gives different tags for different secrets, the guard never admits a refresh token |

## Left out

- Logging (`services/logger.js`, `middleware/logging.js`) changes no state and no response, so it is not modelled.
- The login notification mail (`config/email.js`) is modelled only as the call site `SendMail`, which may throw. Its content and transport are not modelled.
- Request validation (`validation/auth-validation.js`), the rate limiter, helmet, routing (`routes/user.js`), the database connection and the server setup (`index.js`) sit outside the handlers. The handlers are modelled on the body they receive. One consequence is not modelled: validation of `/logout` accepts only `userId`, so a body that also carries `refreshToken` would be refused before Logout runs.
- The Redis client setup and `testRedisConnection` are connection plumbing and are not modelled.
- `models/user.js` is not part of this model. The user record's fields are taken from the controller's use of them.
- `User.create` is assumed to refuse a document only when its `_id` is already taken, besides throwing at the `CreateUser` call site. Schema validation or a unique index declared in `models/user.js` could refuse other documents (a duplicate email, say); that is not modelled, so no unique index on `email` is assumed.
- The JWT encoding (base64url JSON with an HS256 header) is replaced by a compact form of the same shape. HMAC and bcrypt are function parameters (`Mac`, `Kdf`); neither is computed.
- Lifecycle.GuardRejectsRefreshToken: proved under the same assumption as Tokens.CrossKindRejected, that the MAC gives different tags for different secrets.
- Tokens.CrossKindRejected: proved under the assumption that the MAC gives different tags for different secrets, which HMAC is only expected to do.
- A write that throws is taken to have applied nothing. This covers a Redis SET, `user.save()` and `User.create`. A client can reject after the server applied the write (a lost reply or a timeout); that case is not modelled.
- Mongoose's casting of a malformed `_id` (which throws) is not modelled. A lookup by an id that is not stored finds nobody.
- Concurrency is not modelled. Requests run one at a time, so interleaved logins and refreshes for one user are not modelled.
- Time is a whole-second clock. Redis keeps millisecond expiries, and JWT's `exp` check uses seconds. The model uses one clock for both, and a key or token is live while the clock is strictly before its expiry.

## Findings

| source | as written | input that shows it | evidently intended | confidence | as-written member | corrected member |
|---|---|---|---|---|---|---|
| controller/user.js:128 | the refresh handler looks the user up by `decoded.userId`, but `generateTokens` signs only `{ id: userId }`, so the lookup is `findById(undefined)` and finds nobody | register, then present the returned refresh token to `/refresh-token` within seven days: the answer is 401 "Invalid refresh token" and nothing rotates | look the user up by `decoded.id`, the claim the issuer signs | high (follows from the two cited lines; not executed) | Lifecycle.RefreshAsWrittenRejectsIssuedTokens | Lifecycle.RefreshIntendedRotatesRegisteredToken |

=== FILE: cache.dfy ===
/** The revocation cache (services/redis.js): a Redis key-value store with
    per-key expiry, used as a positive cache of the last issued tokens of each
    user and as a blacklist of revoked tokens. Time is a logical clock in whole
    seconds; a key written at `now` with `EX ttl` is visible while the clock is
    below `now + ttl`. */
module Cache {
  import opened Wrappers
  import opened Faults

  /** `EX: 15 * 60` and `EX: 24 * 60 * 60`. */
  const AccessTtl: nat := 15 * 60
  const RefreshTtl: nat := 24 * 60 * 60

  /** The value every blacklist key holds. */
  const BlacklistMark: string := "1"

  /** The `type` argument of the helpers: 'access' or 'refresh'. */
  datatype Kind = Access | Refresh

  function KindName(kind: Kind): string {
    match kind
    case Access => "access"
    case Refresh => "refresh"
  }

  datatype Entry = Entry(value: string, expiresAt: nat)

  datatype Redis = Redis(entries: map<string, Entry>)

  /** The positive-cache key family: `access_token:<userId>` and
      `refresh_token:<userId>`. */
  function CachedKey(userId: string, kind: Kind): string {
    KindName(kind) + "_token:" + userId
  }

  /** The blacklist key family: `blacklist:access_token:<token>` and
      `blacklist:refresh_token:<token>`. */
  function BlacklistKey(token: string, kind: Kind): string {
    "blacklist:" + KindName(kind) + "_token:" + token
  }

  /** `GET key` at time `now`: the value, or `None` (Redis `null`) when the key
      was never written or its expiry has passed. This is the definition of a
      read; the ensures spell out its two cases for the lemmas that use it. */
  function Get(c: Redis, key: string, now: nat): (r: Option<string>)
    ensures r.Some? <==> key in c.entries && now < c.entries[key].expiresAt
    ensures r.Some? ==> r.value == c.entries[key].value
  {
    if key in c.entries && now < c.entries[key].expiresAt then Some(c.entries[key].value) else None
  }

  /** `SET key value EX ttl` at time `now`: the key reads `value` for `ttl`
      seconds, overwriting any earlier value and expiry; no other key changes. */
  function Set(c: Redis, key: string, value: string, ttl: nat, now: nat): (r: Redis)
    ensures forall t: nat :: Get(r, key, t) == (if t < now + ttl then Some(value) else None)
    ensures r.entries - {key} == c.entries - {key}
  {
    Redis(c.entries[key := Entry(value, now + ttl)])
  }

  /** The outcome of a helper that writes: whether it returned or threw, and the
      cache after the writes that were made before the throw. */
  datatype Written = Written(result: Result<(), Fault>, cache: Redis)

  /** `cacheTokens(userId, accessToken, refreshToken)`: stores the access token
      for 15 minutes and the refresh token for 24 hours under the user's
      positive-cache keys; a throwing SET is rethrown, and the write made before
      it stays. */
  function CacheTokens(c: Redis, userId: string, accessToken: string, refreshToken: string,
                       now: nat, faults: Faults): (w: Written)
    ensures w.result.Ok? <==> CacheAccessSet !in faults && CacheRefreshSet !in faults
    ensures w.result.Err? ==> w.result.error.site in faults
    ensures CacheAccessSet in faults ==> w == Written(Err(Fault(CacheAccessSet)), c)
    ensures CacheAccessSet !in faults ==>
              forall t: nat :: Get(w.cache, CachedKey(userId, Access), t) == (if t < now + AccessTtl then Some(accessToken) else None)
    ensures CacheAccessSet !in faults && CacheRefreshSet in faults ==>
              && w.result == Err(Fault(CacheRefreshSet))
              && w.cache.entries - {CachedKey(userId, Access)} == c.entries - {CachedKey(userId, Access)}
    ensures w.result.Ok? ==>
              forall t: nat :: Get(w.cache, CachedKey(userId, Refresh), t) == (if t < now + RefreshTtl then Some(refreshToken) else None)
    ensures w.cache.entries - {CachedKey(userId, Access), CachedKey(userId, Refresh)}
            == c.entries - {CachedKey(userId, Access), CachedKey(userId, Refresh)}
  {
    if CacheAccessSet in faults then Written(Err(Fault(CacheAccessSet)), c)
    else
      var c1 := Set(c, CachedKey(userId, Access), accessToken, AccessTtl, now);
      if CacheRefreshSet in faults then Written(Err(Fault(CacheRefreshSet)), c1)
      else
        assert CachedKey(userId, Access) != CachedKey(userId, Refresh) by { CachedKeyInjective(userId, userId, Access, Refresh); }
        Written(Ok(()), Set(c1, CachedKey(userId, Refresh), refreshToken, RefreshTtl, now))
  }

  /** `blacklistTokens(accessToken, refreshToken)`: marks the access token as
      revoked for 15 minutes and the refresh token for 24 hours; a throwing SET is
      rethrown, and the write made before it stays. */
  function BlacklistTokens(c: Redis, accessToken: string, refreshToken: string,
                           now: nat, faults: Faults): (w: Written)
    ensures w.result.Ok? <==> BlacklistAccessSet !in faults && BlacklistRefreshSet !in faults
    ensures w.result.Err? ==> w.result.error.site in faults
    ensures BlacklistAccessSet in faults ==> w == Written(Err(Fault(BlacklistAccessSet)), c)
    ensures BlacklistAccessSet !in faults ==>
              forall t: nat :: Get(w.cache, BlacklistKey(accessToken, Access), t) == (if t < now + AccessTtl then Some(BlacklistMark) else None)
    ensures BlacklistAccessSet !in faults && BlacklistRefreshSet in faults ==>
              && w.result == Err(Fault(BlacklistRefreshSet))
              && w.cache.entries - {BlacklistKey(accessToken, Access)} == c.entries - {BlacklistKey(accessToken, Access)}
    ensures w.result.Ok? ==>
              forall t: nat :: Get(w.cache, BlacklistKey(refreshToken, Refresh), t) == (if t < now + RefreshTtl then Some(BlacklistMark) else None)
    ensures w.cache.entries - {BlacklistKey(accessToken, Access), BlacklistKey(refreshToken, Refresh)}
            == c.entries - {BlacklistKey(accessToken, Access), BlacklistKey(refreshToken, Refresh)}
  {
    if BlacklistAccessSet in faults then Written(Err(Fault(BlacklistAccessSet)), c)
    else
      var c1 := Set(c, BlacklistKey(accessToken, Access), BlacklistMark, AccessTtl, now);
      if BlacklistRefreshSet in faults then Written(Err(Fault(BlacklistRefreshSet)), c1)
      else
        assert BlacklistKey(accessToken, Access) != BlacklistKey(refreshToken, Refresh) by {
          BlacklistKeyInjective(accessToken, refreshToken, Access, Refresh);
        }
        Written(Ok(()), Set(c1, BlacklistKey(refreshToken, Refresh), BlacklistMark, RefreshTtl, now))
  }

  /** `isTokenBlacklisted(token, type = 'access')`: true exactly when the
      blacklist key of that kind is present; a throwing GET is rethrown, never
      read as "not blacklisted". */
  function IsTokenBlacklisted(c: Redis, token: string, now: nat, faults: Faults, kind: Kind := Access): (r: Result<bool, Fault>)
    ensures r.Err? <==> CacheGet in faults
    ensures r.Err? ==> r.error == Fault(CacheGet)
    ensures r.Ok? ==> (r.value <==> BlacklistKey(token, kind) in c.entries && now < c.entries[BlacklistKey(token, kind)].expiresAt)
  {
    if CacheGet in faults then Err(Fault(CacheGet))
    else Ok(Get(c, BlacklistKey(token, kind), now).Some?)
  }

  /** `getCachedToken(userId, type = 'access')`: the value under the user's
      positive-cache key of that kind, or `None`; a throwing GET is rethrown. */
  function GetCachedToken(c: Redis, userId: string, now: nat, faults: Faults, kind: Kind := Access): (r: Result<Option<string>, Fault>)
    ensures r.Err? <==> CacheGet in faults
    ensures r.Err? ==> r.error == Fault(CacheGet)
    ensures r.Ok? && r.value.Some? ==> CachedKey(userId, kind) in c.entries && r.value.value == c.entries[CachedKey(userId, kind)].value
    ensures r.Ok? ==> (r.value.Some? <==> CachedKey(userId, kind) in c.entries && now < c.entries[CachedKey(userId, kind)].expiresAt)
  {
    if CacheGet in faults then Err(Fault(CacheGet))
    else Ok(Get(c, CachedKey(userId, kind), now))
  }

  /* ---------------------------------------------------------------------------
     Key families
     ------------------------------------------------------------------------ */

  /** A positive-cache key is never a blacklist key: the first begins with
      "access" or "refresh", the second with "blacklist". */
  lemma KeyFamiliesDisjoint(userId: string, token: string, k1: Kind, k2: Kind)
    ensures CachedKey(userId, k1) != BlacklistKey(token, k2)
  {
    assert CachedKey(userId, k1)[0] != BlacklistKey(token, k2)[0];
  }

  /** Positive-cache keys are one-to-one: equal keys have the same user and kind. */
  lemma CachedKeyInjective(u1: string, u2: string, k1: Kind, k2: Kind)
    ensures CachedKey(u1, k1) == CachedKey(u2, k2) ==> u1 == u2 && k1 == k2
  {
    var p1 := KindName(k1) + "_token:";
    var p2 := KindName(k2) + "_token:";
    if k1 != k2 {
      assert CachedKey(u1, k1)[0] != CachedKey(u2, k2)[0];
    } else if CachedKey(u1, k1) == CachedKey(u2, k2) {
      assert u1 == CachedKey(u1, k1)[|p1|..];
      assert u2 == CachedKey(u2, k2)[|p2|..];
    }
  }

  /** Blacklist keys are one-to-one: equal keys have the same token and kind. */
  lemma BlacklistKeyInjective(t1: string, t2: string, k1: Kind, k2: Kind)
    ensures BlacklistKey(t1, k1) == BlacklistKey(t2, k2) ==> t1 == t2 && k1 == k2
  {
    var p1 := "blacklist:" + KindName(k1) + "_token:";
    var p2 := "blacklist:" + KindName(k2) + "_token:";
    if k1 != k2 {
      assert BlacklistKey(t1, k1)[10] != BlacklistKey(t2, k2)[10];
    } else if BlacklistKey(t1, k1) == BlacklistKey(t2, k2) {
      assert t1 == BlacklistKey(t1, k1)[|p1|..];
      assert t2 == BlacklistKey(t2, k2)[|p2|..];
    }
  }

  /* ---------------------------------------------------------------------------
     Properties
     ------------------------------------------------------------------------ */

  /** After a successful `blacklistTokens(a, r)` at time `now`, `a` reads as a
      blacklisted access token and `r` as a blacklisted refresh token exactly
      until their TTLs elapse. */
  lemma BlacklistedUntilExpiry(c: Redis, a: string, r: string, now: nat, faults: Faults, t: nat, later: Faults)
    requires BlacklistTokens(c, a, r, now, faults).result.Ok?
    requires CacheGet !in later
    ensures IsTokenBlacklisted(BlacklistTokens(c, a, r, now, faults).cache, a, t, later, Access) == Ok(t < now + AccessTtl)
    ensures IsTokenBlacklisted(BlacklistTokens(c, a, r, now, faults).cache, r, t, later, Refresh) == Ok(t < now + RefreshTtl)
  {
    var c' := BlacklistTokens(c, a, r, now, faults).cache;
    assert Get(c', BlacklistKey(a, Access), t) == (if t < now + AccessTtl then Some(BlacklistMark) else None);
    assert Get(c', BlacklistKey(r, Refresh), t) == (if t < now + RefreshTtl then Some(BlacklistMark) else None);
  }

  /** After a successful `cacheTokens(u, a, r)` at time `now`, `getCachedToken`
      reads back `a` and `r` for the user until their TTLs elapse, then nothing. */
  lemma CachedTokensReadBack(c: Redis, u: string, a: string, r: string, now: nat, faults: Faults, t: nat, later: Faults)
    requires CacheTokens(c, u, a, r, now, faults).result.Ok?
    requires CacheGet !in later
    ensures GetCachedToken(CacheTokens(c, u, a, r, now, faults).cache, u, t, later, Access)
            == Ok(if t < now + AccessTtl then Some(a) else None)
    ensures GetCachedToken(CacheTokens(c, u, a, r, now, faults).cache, u, t, later, Refresh)
            == Ok(if t < now + RefreshTtl then Some(r) else None)
  {
    var c' := CacheTokens(c, u, a, r, now, faults).cache;
    assert Get(c', CachedKey(u, Access), t) == (if t < now + AccessTtl then Some(a) else None);
    assert Get(c', CachedKey(u, Refresh), t) == (if t < now + RefreshTtl then Some(r) else None);
  }

  /** Blacklisting never changes what `getCachedToken` reads. */
  lemma BlacklistKeepsCachedReads(c: Redis, a: string, r: string, now: nat, faults: Faults,
                                  u: string, t: nat, later: Faults, kind: Kind)
    ensures GetCachedToken(BlacklistTokens(c, a, r, now, faults).cache, u, t, later, kind)
            == GetCachedToken(c, u, t, later, kind)
  {
    KeyFamiliesDisjoint(u, a, kind, Access);
    KeyFamiliesDisjoint(u, r, kind, Refresh);
    var w := BlacklistTokens(c, a, r, now, faults);
    var keys := {BlacklistKey(a, Access), BlacklistKey(r, Refresh)};
    assert CachedKey(u, kind) !in keys;
    assert (CachedKey(u, kind) in w.cache.entries) == (CachedKey(u, kind) in (w.cache.entries - keys));
    assert (CachedKey(u, kind) in c.entries) == (CachedKey(u, kind) in (c.entries - keys));
  }

  /** Caching tokens never changes what `isTokenBlacklisted` reads. */
  lemma CachingKeepsBlacklistReads(c: Redis, u: string, a: string, r: string, now: nat, faults: Faults,
                                   token: string, t: nat, later: Faults, kind: Kind)
    ensures IsTokenBlacklisted(CacheTokens(c, u, a, r, now, faults).cache, token, t, later, kind)
            == IsTokenBlacklisted(c, token, t, later, kind)
  {
    KeyFamiliesDisjoint(u, token, Access, kind);
    KeyFamiliesDisjoint(u, token, Refresh, kind);
    var w := CacheTokens(c, u, a, r, now, faults);
    var keys := {CachedKey(u, Access), CachedKey(u, Refresh)};
    assert BlacklistKey(token, kind) !in keys;
    assert (BlacklistKey(token, kind) in w.cache.entries) == (BlacklistKey(token, kind) in (w.cache.entries - keys));
    assert (BlacklistKey(token, kind) in c.entries) == (BlacklistKey(token, kind) in (c.entries - keys));
  }
}

=== FILE: faults.dfy ===
/** The external calls a request makes that can throw, and the per-request
    environment. A request names the set of call sites that throw during it;
    every site is reached at most once per request, so this set decides every
    success and failure, including a failure between two writes of one helper. */
module Faults {

  datatype Site =
    | BcryptHash          // bcrypt.hash
    | BcryptCompare       // bcrypt.compare
    | FindUser            // User.findOne / User.findById
    | CreateUser          // User.create
    | SaveUser            // user.save
    | SignAccess          // jwt.sign with the access secret
    | SignRefresh         // jwt.sign with the refresh secret
    | CacheAccessSet      // SET access_token:<user>
    | CacheRefreshSet     // SET refresh_token:<user>
    | BlacklistAccessSet  // SET blacklist:access_token:<token>
    | BlacklistRefreshSet // SET blacklist:refresh_token:<token>
    | CacheGet            // any GET on the cache
    | SendMail            // sendLoginNotification

  /** The call sites that throw during one request. */
  type Faults = set<Site>

  /** The error a throwing call raises: which call threw. */
  datatype Fault = Fault(site: Site)
}

=== FILE: guard.dfy ===
/** The authentication guard (middleware/auth.js) as a decision: let the request
    through with the user's profile attached, or answer it with a status and a
    message. */
module Guard {
  import opened Wrappers
  import opened Text
  import opened Faults
  import opened Tokens
  import opened Cache
  import opened Users

  const BearerPrefix: string := "Bearer "

  const MsgNoToken: string := "No token provided"
  const MsgRevoked: string := "Token has been revoked"
  const MsgInvalidToken: string := "Invalid token"
  const MsgUserNotFound: string := "User not found"
  const MsgAuthFailed: string := "Authentication failed"

  datatype Decision =
    | Next(user: Profile)             // `req.user = user; next()`
    | Deny(status: nat, msg: string)  // `res.status(status).json({ msg, success: false })`

  /** The token the guard checks: the second space-separated field of a header
      that starts with "Bearer ". */
  function BearerToken(authorization: Option<string>): (r: Option<string>)
    ensures r.Some? <==> authorization.Some? && StartsWith(authorization.value, BearerPrefix)
    ensures r.Some? ==> ' ' !in r.value
  {
    if authorization.None? || !StartsWith(authorization.value, BearerPrefix) then None
    else
      var h := authorization.value;
      assert h[6] == ' ';
      SecondField(h)
  }

  /** `auth(req, res, next)`. The blacklist is consulted before the signature;
      a throwing cache read or user lookup answers 500. */
  function Authenticate(authorization: Option<string>, users: seq<User>, cache: Redis, iss: Issuer,
                        now: nat, faults: Faults): (d: Decision)
    ensures d.Deny? ==> d.status in {401, 500}
    ensures BearerToken(authorization).None? ==> d == Deny(401, MsgNoToken)
    ensures && BearerToken(authorization).Some?
            && IsTokenBlacklisted(cache, BearerToken(authorization).value, now, faults, Access) == Ok(true)
            ==> d == Deny(401, MsgRevoked)
    ensures d.Deny? && d.status == 500 ==> d.msg == MsgAuthFailed && (CacheGet in faults || FindUser in faults)
    ensures BearerToken(authorization).Some? && CacheGet in faults ==> d == Deny(500, MsgAuthFailed)
    ensures && BearerToken(authorization).Some?
            && IsTokenBlacklisted(cache, BearerToken(authorization).value, now, faults, Access) == Ok(false)
            && VerifyAccessToken(iss, BearerToken(authorization).value, now).None?
            ==> d == Deny(401, MsgInvalidToken)
    ensures && BearerToken(authorization).Some?
            && IsTokenBlacklisted(cache, BearerToken(authorization).value, now, faults, Access) == Ok(false)
            && VerifyAccessToken(iss, BearerToken(authorization).value, now).Some?
            && FindUser in faults
            ==> d == Deny(500, MsgAuthFailed)
    ensures && BearerToken(authorization).Some?
            && IsTokenBlacklisted(cache, BearerToken(authorization).value, now, faults, Access) == Ok(false)
            && VerifyAccessToken(iss, BearerToken(authorization).value, now).Some?
            && FindUser !in faults
            && FindById(users, ClaimValue(VerifyAccessToken(iss, BearerToken(authorization).value, now).value.claims, IdClaim)).None?
            ==> d == Deny(401, MsgUserNotFound)
    ensures d.Next? <==>
              && BearerToken(authorization).Some?
              && CacheGet !in faults && FindUser !in faults
              && IsTokenBlacklisted(cache, BearerToken(authorization).value, now, faults, Access) == Ok(false)
              && VerifyAccessToken(iss, BearerToken(authorization).value, now).Some?
              && FindById(users, ClaimValue(VerifyAccessToken(iss, BearerToken(authorization).value, now).value.claims, IdClaim)).Some?
    ensures d.Next? ==>
              var p := VerifyAccessToken(iss, BearerToken(authorization).value, now).value;
              && now < p.exp
              && FindById(users, ClaimValue(p.claims, IdClaim)).Some?
              && d.user == ProfileOf(FindById(users, ClaimValue(p.claims, IdClaim)).value)
              && FindById(users, ClaimValue(p.claims, IdClaim)).value in users
  {
    match BearerToken(authorization)
    case None => Deny(401, MsgNoToken)
    case Some(token) =>
      match IsTokenBlacklisted(cache, token, now, faults, Access)
      case Err(_) => Deny(500, MsgAuthFailed)
      case Ok(blacklisted) =>
        if blacklisted then Deny(401, MsgRevoked)
        else
          match VerifyAccessToken(iss, token, now)
          case None => Deny(401, MsgInvalidToken)
          case Some(decoded) =>
            if FindUser in faults then Deny(500, MsgAuthFailed)
            else
              match FindById(users, ClaimValue(decoded.claims, IdClaim))
              case None => Deny(401, MsgUserNotFound)
              case Some(u) => Next(ProfileOf(u))
  }

  /** A header carrying a token as "Bearer <token>" hands the guard exactly that
      token, whatever the token's contents, as long as it holds no space. */
  lemma BearerTokenOfHeader(token: string)
    requires ' ' !in token
    ensures BearerToken(Some(BearerPrefix + token)) == Some(token)
  {
    var h := BearerPrefix + token;
    assert h == "Bearer" + " " + token;
    assert StartsWith(h, BearerPrefix) by { assert h[..|BearerPrefix|] == BearerPrefix; }
    SecondFieldAfterScheme("Bearer", token);
  }
}

=== FILE: lifecycle.dfy ===
/** Properties that relate several requests: the invariant of the user store
    that every handler keeps, what a client can and cannot do with the tokens it
    was given, and the refresh-token lookup as written against the lookup the
    issuer's claims call for. */
module Lifecycle {
  import opened Wrappers
  import opened Text
  import opened Faults
  import opened Tokens
  import opened Cache
  import opened Users
  import opened Sessions
  import opened Guard

  /* ---------------------------------------------------------------------------
     The store invariant
     ------------------------------------------------------------------------ */

  /** Ids are unique, emails are unique, and no user holds more than five
      refresh tokens. */
  ghost predicate ValidUsers(users: seq<User>) {
    && UniqueIds(users)
    && UniqueEmails(users)
    && forall i :: 0 <= i < |users| ==> |users[i].refreshTokens| <= MaxRefreshTokens
  }

  ghost predicate Valid(st: State) {
    ValidUsers(st.users)
  }

  /** Saving a loaded user with only its token list changed, to a list within
      the cap, keeps the invariant. */
  lemma SaveKeepsValid(users: seq<User>, v: User, u: User)
    requires ValidUsers(users) && v in users
    requires u.id == v.id && u.email == v.email && |u.refreshTokens| <= MaxRefreshTokens
    ensures ValidUsers(Save(users, u))
  {
    var r := Save(users, u);
    forall i | 0 <= i < |users| ensures r[i].id == users[i].id && r[i].email == users[i].email
    {
      if users[i].id == u.id {
        var k :| 0 <= k < |users| && users[k] == v;
        assert k == i;
      }
    }
  }

  /** Appending a user whose id and email are new, with a list within the cap,
      keeps the invariant. */
  lemma AppendKeepsValid(users: seq<User>, u: User)
    requires ValidUsers(users)
    requires !HasId(users, u.id) && FindByEmail(users, u.email).None?
    requires |u.refreshTokens| <= MaxRefreshTokens
    ensures ValidUsers(users + [u])
  {
    var r := users + [u];
    assert forall i :: 0 <= i < |users| ==> r[i] == users[i];
    assert r[|users|] == u;
  }

  lemma RegisterCreatedKeepsValid(st: State, created: User, msg: string, deps: Deps, env: Env)
    requires Valid(st) && created in st.users
    ensures Valid(RegisterCreated(st, created, msg, deps, env).state)
  {
    match GenerateTokens(deps.issuer, created.id, env.now, env.faults)
    case Err(_) =>
    case Ok(pair) =>
      SaveKeepsValid(st.users, created, created.(refreshTokens := [pair.refreshToken]));
  }

  /** `Register` keeps the invariant: the new user's id and email are unused and
      its list holds one token, and a failure after `User.create` leaves a valid
      store too. */
  lemma RegisterKeepsValid(st: State, name: Option<string>, email: Option<string>, password: Option<string>,
                           deps: Deps, env: Env)
    requires Valid(st)
    ensures Valid(Register(st, name, email, password, deps, env).state)
  {
    if !Falsy(name) && !Falsy(email) && !Falsy(password) && BcryptHash !in env.faults
       && FindUser !in env.faults && FindByEmail(st.users, email.value).None? && CreateUser !in env.faults {
      var created := User(env.newId, name.value, email.value, HashPassword(deps.kdf, password.value, env.salt), []);
      if !HasId(st.users, env.newId) {
        var users1 := st.users + [created];
        AppendKeepsValid(st.users, created);
        assert created in users1 by { assert users1[|st.users|] == created; }
        RegisterCreatedKeepsValid(State(users1, st.cache), created, name.value + MsgCreatedSuffix, deps, env);
      }
    }
  }

  lemma LoginVerifiedKeepsValid(st: State, user: User, deps: Deps, env: Env)
    requires Valid(st) && user in st.users
    ensures Valid(LoginVerified(st, user, deps, env).state)
  {
    match GenerateTokens(deps.issuer, user.id, env.now, env.faults)
    case Err(_) =>
    case Ok(pair) =>
      var k :| 0 <= k < |st.users| && st.users[k] == user;
      SaveKeepsValid(st.users, user, user.(refreshTokens := PushCapped(user.refreshTokens, pair.refreshToken)));
  }

  /** `Login` keeps the invariant; in particular dropping the oldest token keeps
      every list at five or fewer. */
  lemma LoginKeepsValid(st: State, email: Option<string>, password: Option<string>, deps: Deps, env: Env)
    requires Valid(st)
    ensures Valid(Login(st, email, password, deps, env).state)
  {
    if !Falsy(email) && !Falsy(password) && FindUser !in env.faults && FindByEmail(st.users, email.value).Some? {
      LoginVerifiedKeepsValid(st, FindByEmail(st.users, email.value).value, deps, env);
    }
  }

  lemma RefreshRotateKeepsValid(st: State, user: User, token: string, deps: Deps, env: Env)
    requires Valid(st) && user in st.users && token in user.refreshTokens
    ensures Valid(RefreshRotate(st, user, token, deps, env).state)
  {
    match GenerateTokens(deps.issuer, user.id, env.now, env.faults)
    case Err(_) =>
    case Ok(pair) =>
      var k :| 0 <= k < |st.users| && st.users[k] == user;
      WithoutShrinks(user.refreshTokens, token);
      SaveKeepsValid(st.users, user, user.(refreshTokens := Without(user.refreshTokens, token) + [pair.refreshToken]));
  }

  /** Refreshing, by either claim, keeps the invariant: the presented token is
      in the list, so removing it makes room for the new one. */
  lemma RefreshKeepsValid(claim: string, st: State, refreshToken: Option<string>, deps: Deps, env: Env)
    requires Valid(st)
    ensures Valid(RefreshWith(claim, st, refreshToken, deps, env).state)
  {
    if !Falsy(refreshToken) && IsTokenBlacklisted(st.cache, refreshToken.value, env.now, env.faults, Refresh) == Ok(false) {
      match VerifyRefreshToken(deps.issuer, refreshToken.value, env.now)
      case None =>
      case Some(decoded) =>
        match RefreshHolder(claim, st.users, refreshToken.value, decoded, env)
        case None =>
        case Some(user) => RefreshRotateKeepsValid(st, user, refreshToken.value, deps, env);
    }
  }

  /** `Logout` keeps the invariant: it only removes tokens. */
  lemma LogoutKeepsValid(st: State, userId: Option<string>, refreshToken: Option<string>, authorization: Option<string>,
                         env: Env)
    requires Valid(st)
    ensures Valid(Logout(st, userId, refreshToken, authorization, env).state)
  {
    if FindUser !in env.faults && FindById(st.users, userId).Some? {
      var u := FindById(st.users, userId).value;
      var k :| 0 <= k < |st.users| && st.users[k] == u;
      assert |u.refreshTokens| <= MaxRefreshTokens;
      var kept := if refreshToken.Some? then Without(u.refreshTokens, refreshToken.value) else u.refreshTokens;
      SaveKeepsValid(st.users, u, u.(refreshTokens := kept));
    }
  }

  /* ---------------------------------------------------------------------------
     Login
     ------------------------------------------------------------------------ */

  /** An unknown email and a wrong password for a known one get the same
      answer and change nothing. */
  lemma LoginCredentialErrorsIdentical(st: State, email: Option<string>, password: Option<string>, deps: Deps, env: Env)
    requires !Falsy(email) && !Falsy(password) && FindUser !in env.faults && BcryptCompare !in env.faults
    requires || FindByEmail(st.users, email.value).None?
             || !ComparePassword(deps.kdf, password.value, FindByEmail(st.users, email.value).value.password)
    ensures Login(st, email, password, deps, env) == Reject(400, MsgInvalidCredentials, st)
  {
  }

  /** When only the notification mail fails, the login answers 500, yet the
      store and the cache are left exactly as a successful login leaves them:
      the new refresh token is saved and cached though the client never sees it. */
  lemma LoginMailFailureKeepsWrites(st: State, email: Option<string>, password: Option<string>, deps: Deps, env: Env)
    requires !Falsy(email) && !Falsy(password)
    requires FindByEmail(st.users, email.value).Some?
    requires ComparePassword(deps.kdf, password.value, FindByEmail(st.users, email.value).value.password)
    requires SendMail in env.faults && FindUser !in env.faults && BcryptCompare !in env.faults && IssueClear(env.faults)
    ensures Login(st, email, password, deps, env) ==
            Step(Reject(500, MsgLoginFailed, st).response,
                 Login(st, email, password, deps, env.(faults := env.faults - {SendMail})).state)
  {
    var env' := env.(faults := env.faults - {SendMail});
    var user := FindByEmail(st.users, email.value).value;
    assert GenerateTokens(deps.issuer, user.id, env.now, env.faults) == GenerateTokens(deps.issuer, user.id, env.now, env'.faults);
    var pair := GenerateTokens(deps.issuer, user.id, env.now, env.faults).value;
    assert CacheTokens(st.cache, user.id, pair.accessToken, pair.refreshToken, env.now, env.faults)
        == CacheTokens(st.cache, user.id, pair.accessToken, pair.refreshToken, env.now, env'.faults);
  }

  /* ---------------------------------------------------------------------------
     RefreshToken: the claim the user is looked up by
     ------------------------------------------------------------------------ */

  /** As written, `RefreshToken` can never accept a refresh token that
      `generateTokens` issued: those carry only the claim `id`, the handler reads
      `userId`, finds nobody and answers 401 without changing anything. */
  lemma RefreshAsWrittenRejectsIssuedTokens(st: State, deps: Deps, env: Env, userId: string, issuedAt: nat, f: Faults)
    requires SignAccess !in f && SignRefresh !in f
    ensures var s := RefreshToken(st, Some(GenerateTokens(deps.issuer, userId, issuedAt, f).value.refreshToken), deps, env);
            s.response.status == 401 && s.state == st
  {
    var token := GenerateTokens(deps.issuer, userId, issuedAt, f).value.refreshToken;
    GeneratedTokensVerify(deps.issuer, userId, issuedAt, f, env.now);
    assert ClaimValue(IdPayload(userId, issuedAt, RefreshLifetime).claims, UserIdClaim).None?;
    match VerifyRefreshToken(deps.issuer, token, env.now)
    case None =>
    case Some(decoded) =>
      assert decoded == IdPayload(userId, issuedAt, RefreshLifetime);
      assert RefreshHolder(UserIdClaim, st.users, token, decoded, env).None?;
  }

  /** The initial state: no users, an empty cache. */
  function Init(): State {
    State([], Redis(map[]))
  }

  /** A registration into the empty store in which no call throws answers 201
      with the pair generated for the new id, and leaves exactly the new user,
      holding that refresh token, and the cached pair. */
  lemma RegisterFromInit(name: string, email: string, password: string, deps: Deps, env: Env)
    requires name != "" && email != "" && password != ""
    requires RegisterClear(env.faults)
    ensures var s := Register(Init(), Some(name), Some(email), Some(password), deps, env);
            var pair := GenerateTokens(deps.issuer, env.newId, env.now, env.faults).value;
            && s.response.status == 201
            && s.response.body.accessToken == pair.accessToken
            && s.response.body.refreshToken == pair.refreshToken
            && s.state == AfterRegistration(name, email, HashPassword(deps.kdf, password, env.salt), deps, env)
  {
    assert FindByEmail([], email).None?;
    assert !HasId([], env.newId);
    RegisterTokens(Init(), name, email, password, deps, env);
  }

  /** The state a registration into the empty store leaves when no call throws:
      the one new user, holding the issued refresh token, and the cached pair. */
  function AfterRegistration(name: string, email: string, hash: PasswordHash, deps: Deps, env: Env): State
    requires IssueClear(env.faults)
  {
    var pair := GenerateTokens(deps.issuer, env.newId, env.now, env.faults).value;
    State([User(env.newId, name, email, hash, [pair.refreshToken])],
          CacheTokens(Redis(map[]), env.newId, pair.accessToken, pair.refreshToken, env.now, env.faults).cache)
  }

  /** From that state, the lookup by `id` rotates the user's refresh token at any
      later second within its lifetime. */
  lemma RegisteredTokenRotates(name: string, email: string, hash: PasswordHash, deps: Deps, env1: Env, env2: Env)
    requires IssueClear(env1.faults) && RefreshClear(env2.faults)
    requires env1.now < env2.now < env1.now + RefreshLifetime
    ensures var token := GenerateTokens(deps.issuer, env1.newId, env1.now, env1.faults).value.refreshToken;
            var s2 := RefreshWith(IdClaim, AfterRegistration(name, email, hash, deps, env1), Some(token), deps, env2);
            && s2.response.status == 200
            && s2.response.body.refreshToken != token
            && FindById(s2.state.users, Some(env1.newId)).Some?
            && FindById(s2.state.users, Some(env1.newId)).value.refreshTokens == [s2.response.body.refreshToken]
  {
    var pair := GenerateTokens(deps.issuer, env1.newId, env1.now, env1.faults).value;
    var token := pair.refreshToken;
    var st1 := AfterRegistration(name, email, hash, deps, env1);
    var user := User(env1.newId, name, email, hash, [token]);
    CachingKeepsBlacklistReads(Redis(map[]), env1.newId, pair.accessToken, pair.refreshToken, env1.now, env1.faults,
                               token, env2.now, env2.faults, Refresh);
    assert IsTokenBlacklisted(st1.cache, token, env2.now, env2.faults, Refresh) == Ok(false);
    GeneratedTokensVerify(deps.issuer, env1.newId, env1.now, env1.faults, env2.now);
    var decoded := IdPayload(env1.newId, env1.now, RefreshLifetime);
    assert VerifyRefreshToken(deps.issuer, token, env2.now) == Some(decoded);
    assert FindById([user], Some(env1.newId)) == Some(user);
    assert RefreshHolder(IdClaim, st1.users, token, decoded, env2) == Some(user);
    LaterIssueDiffers(deps.issuer, env1.newId, env1.now, env2.now, env1.faults, env2.faults);
    WithoutMembership([token], token, token);
    assert Without([token], token) == [];
    assert HasId([user], env1.newId);
  }

  /** With the lookup by `id`, a fresh registration's refresh token rotates: a
      later refresh within its lifetime answers 200 with a different refresh
      token, which replaces the old one in the user's list. */
  lemma RefreshIntendedRotatesRegisteredToken(name: string, email: string, password: string, deps: Deps,
                                              env1: Env, env2: Env)
    requires name != "" && email != "" && password != ""
    requires RegisterClear(env1.faults) && RefreshClear(env2.faults)
    requires env1.now < env2.now < env1.now + RefreshLifetime
    ensures var s1 := Register(Init(), Some(name), Some(email), Some(password), deps, env1);
            var s2 := RefreshTokenIntended(s1.state, Some(s1.response.body.refreshToken), deps, env2);
            && s1.response.status == 201
            && s2.response.status == 200
            && s2.response.body.refreshToken != s1.response.body.refreshToken
            && FindById(s2.state.users, Some(env1.newId)).Some?
            && FindById(s2.state.users, Some(env1.newId)).value.refreshTokens == [s2.response.body.refreshToken]
  {
    RegisterFromInit(name, email, password, deps, env1);
    RegisteredTokenRotates(name, email, HashPassword(deps.kdf, password, env1.salt), deps, env1, env2);
  }

  /** The tokens a successful registration answers with are the pair
      `generateTokens` issued for the new id at that time, and the access token
      is cached for the user. */
  lemma RegisterTokens(st: State, name: string, email: string, password: string, deps: Deps, env: Env)
    requires name != "" && email != "" && password != ""
    requires RegisterClear(env.faults) && FindByEmail(st.users, email).None? && !HasId(st.users, env.newId)
    ensures var s := Register(st, Some(name), Some(email), Some(password), deps, env);
            var pair := GenerateTokens(deps.issuer, env.newId, env.now, env.faults);
            && pair.Ok?
            && s.response.body.accessToken == pair.value.accessToken
            && s.response.body.refreshToken == pair.value.refreshToken
            && s.state.cache == CacheTokens(st.cache, env.newId, pair.value.accessToken, pair.value.refreshToken,
                                            env.now, env.faults).cache
  {
    var hash := HashPassword(deps.kdf, password, env.salt);
    var created := User(env.newId, name, email, hash, []);
    var users1 := st.users + [created];
    assert Create(st.users, created) == Some(users1);
  }

  /* ---------------------------------------------------------------------------
     RefreshToken: rotation and replay
     ------------------------------------------------------------------------ */

  /** After a successful refresh the presented token reads as revoked, under
      both blacklist families, until the blacklist entries expire; the holder's
      list has lost every copy of it and ends with the new token. */
  lemma RefreshSuccessRevokes(claim: string, st: State, token: string, deps: Deps, env: Env, t: nat, later: Faults)
    requires RefreshWith(claim, st, Some(token), deps, env).response.status == 200
    requires CacheGet !in later
    ensures var s := RefreshWith(claim, st, Some(token), deps, env);
            var holder := RefreshHolder(claim, st.users, token, VerifyRefreshToken(deps.issuer, token, env.now).value, env).value;
            && IsTokenBlacklisted(s.state.cache, token, t, later, Refresh) == Ok(t < env.now + RefreshTtl)
            && IsTokenBlacklisted(s.state.cache, token, t, later, Access) == Ok(t < env.now + AccessTtl)
            && FindById(s.state.users, Some(holder.id)).Some?
            && var list := FindById(s.state.users, Some(holder.id)).value.refreshTokens;
               && list[|list| - 1] == s.response.body.refreshToken
               && (token in list <==> token == s.response.body.refreshToken)
  {
    var s := RefreshWith(claim, st, Some(token), deps, env);
    var decoded := VerifyRefreshToken(deps.issuer, token, env.now).value;
    var holder := RefreshHolder(claim, st.users, token, decoded, env).value;
    var pair := GenerateTokens(deps.issuer, holder.id, env.now, env.faults).value;
    var w1 := CacheTokens(st.cache, holder.id, pair.accessToken, pair.refreshToken, env.now, env.faults);
    BlacklistedUntilExpiry(w1.cache, token, token, env.now, env.faults, t, later);
    var updated := holder.(refreshTokens := Without(holder.refreshTokens, token) + [s.response.body.refreshToken]);
    assert HasId(st.users, holder.id) by {
      var k :| 0 <= k < |st.users| && st.users[k] == holder;
    }
    assert FindById(s.state.users, Some(holder.id)) == Some(updated);
    WithoutMembership(holder.refreshTokens, token, token);
  }

  /** Once a refresh has rotated a token to a different one, presenting the old
      token again is refused at any later time, by either lookup: first as
      revoked, and after the blacklist entry expires because the holder's list no
      longer holds it. */
  lemma RefreshReplayRejected(claim: string, st: State, token: string, deps: Deps, env: Env, env': Env)
    requires RefreshWith(claim, st, Some(token), deps, env).response.status == 200
    requires RefreshWith(claim, st, Some(token), deps, env).response.body.refreshToken != token
    ensures var s := RefreshWith(claim, st, Some(token), deps, env);
            RefreshWith(claim, s.state, Some(token), deps, env').response.status == 401
  {
    var s := RefreshWith(claim, st, Some(token), deps, env);
    var decoded := VerifyRefreshToken(deps.issuer, token, env.now).value;
    var holder := RefreshHolder(claim, st.users, token, decoded, env).value;
    RefreshSuccessRevokes(claim, st, token, deps, env, env.now, {});
    var list := FindById(s.state.users, Some(holder.id)).value.refreshTokens;
    assert token !in list;
    if VerifyRefreshToken(deps.issuer, token, env'.now).Some? {
      VerifiedPayloadStable(token, RefreshSecret(deps.issuer), deps.issuer.mac, env.now, env'.now);
      assert RefreshHolder(claim, s.state.users, token, decoded, env').None?;
    }
  }

  /** A refresh in the same second as the presented token was issued hands back
      that very token: the new list still holds it, so once its 24-hour
      blacklist entry expires it refreshes again, until its seven-day expiry. */
  lemma SameSecondRefreshReissuesToken(claim: string, st: State, token: string, deps: Deps, env: Env, issued: Faults)
    requires RefreshWith(claim, st, Some(token), deps, env).response.status == 200
    requires GenerateTokens(deps.issuer, ClaimValue(VerifyRefreshToken(deps.issuer, token, env.now).value.claims, claim).value,
                            env.now, issued).Ok?
    requires token == GenerateTokens(deps.issuer, ClaimValue(VerifyRefreshToken(deps.issuer, token, env.now).value.claims, claim).value,
                                     env.now, issued).value.refreshToken
    ensures var s := RefreshWith(claim, st, Some(token), deps, env);
            var holder := RefreshHolder(claim, st.users, token, VerifyRefreshToken(deps.issuer, token, env.now).value, env).value;
            && s.response.body.refreshToken == token
            && FindById(s.state.users, Some(holder.id)).Some?
            && token in FindById(s.state.users, Some(holder.id)).value.refreshTokens
  {
    var decoded := VerifyRefreshToken(deps.issuer, token, env.now).value;
    var holder := RefreshHolder(claim, st.users, token, decoded, env).value;
    SameSecondSamePair(deps.issuer, holder.id, env.now, issued, env.faults);
    RefreshSuccessRevokes(claim, st, token, deps, env, env.now, {});
  }

  /* ---------------------------------------------------------------------------
     Logout and the guard
     ------------------------------------------------------------------------ */

  /** A logout of a stored user drops every copy of the presented refresh token
      from that user's list. */
  lemma LogoutDropsRefreshToken(st: State, userId: Option<string>, token: string, authorization: Option<string>, env: Env)
    requires FindById(st.users, userId).Some?
    requires Logout(st, userId, Some(token), authorization, env).response.status == 200
    ensures var s := Logout(st, userId, Some(token), authorization, env);
            && FindById(s.state.users, userId).Some?
            && token !in FindById(s.state.users, userId).value.refreshTokens
  {
    var u := FindById(st.users, userId).value;
    assert HasId(st.users, u.id) by {
      var k :| 0 <= k < |st.users| && st.users[k] == u;
    }
    WithoutMembership(u.refreshTokens, token, token);
  }

  /** A successful logout of a stored user that carried "Bearer <a>" leaves
      the cache exactly as a successful `blacklistTokens(a, refreshToken)`
      leaves it. */
  lemma LogoutBlacklistsBearer(st: State, userId: Option<string>, refreshToken: Option<string>, a: string, env: Env)
    requires a != "" && ' ' !in a
    requires FindById(st.users, userId).Some?
    requires Logout(st, userId, refreshToken, Some(BearerPrefix + a), env).response.status == 200
    ensures var w := BlacklistTokens(st.cache, a, Interpolate(refreshToken), env.now, env.faults);
            && w.result.Ok?
            && Logout(st, userId, refreshToken, Some(BearerPrefix + a), env).state.cache == w.cache
  {
    BearerSecondField(a);
    LogoutCacheOfSecondField(st, userId, refreshToken, BearerPrefix + a, a, env);
  }

  /** The header "Bearer <a>" splits to `a` at its first space. */
  lemma BearerSecondField(a: string)
    requires ' ' !in a
    ensures SecondField(BearerPrefix + a) == Some(a)
  {
    assert BearerPrefix + a == "Bearer" + " " + a;
    SecondFieldAfterScheme("Bearer", a);
  }

  /** A successful logout of a stored user whose header's second field is a
      non-empty `x` made both blacklist writes for `x`. */
  lemma LogoutCacheOfSecondField(st: State, userId: Option<string>, refreshToken: Option<string>, h: string, x: string,
                                 env: Env)
    requires x != "" && SecondField(h) == Some(x)
    requires FindById(st.users, userId).Some?
    requires Logout(st, userId, refreshToken, Some(h), env).response.status == 200
    ensures var w := BlacklistTokens(st.cache, x, Interpolate(refreshToken), env.now, env.faults);
            && w.result.Ok?
            && Logout(st, userId, refreshToken, Some(h), env).state.cache == w.cache
  {
    assert !Falsy(SecondField(h));
  }

  /** After a logout that carried "Bearer <a>", the guard refuses `a` as revoked
      for the access blacklist's 15 minutes, however valid its signature. */
  lemma LogoutRevokesAccessToken(st: State, userId: Option<string>, refreshToken: Option<string>, a: string,
                                 env: Env, deps: Deps, t: nat, later: Faults)
    requires a != "" && ' ' !in a
    requires FindById(st.users, userId).Some?
    requires Logout(st, userId, refreshToken, Some(BearerPrefix + a), env).response.status == 200
    requires CacheGet !in later && t < env.now + AccessTtl
    ensures var s := Logout(st, userId, refreshToken, Some(BearerPrefix + a), env);
            Authenticate(Some(BearerPrefix + a), s.state.users, s.state.cache, deps.issuer, t, later) == Deny(401, MsgRevoked)
  {
    LogoutBlacklistsBearer(st, userId, refreshToken, a, env);
    BearerTokenOfHeader(a);
    BlacklistedUntilExpiry(st.cache, a, Interpolate(refreshToken), env.now, env.faults, t, later);
  }

  /** From the state a registration into the empty store leaves, the guard
      admits the issued access token for its whole lifetime. */
  lemma RegisteredUserPassesGuard(name: string, email: string, hash: PasswordHash, deps: Deps, env: Env,
                                  t: nat, later: Faults)
    requires IssueClear(env.faults)
    requires CacheGet !in later && FindUser !in later
    requires env.now <= t < env.now + AccessLifetime
    ensures var st := AfterRegistration(name, email, hash, deps, env);
            var a := GenerateTokens(deps.issuer, env.newId, env.now, env.faults).value.accessToken;
            Authenticate(Some(BearerPrefix + a), st.users, st.cache, deps.issuer, t, later) == Next(Profile(env.newId, name, email))
  {
    var pair := GenerateTokens(deps.issuer, env.newId, env.now, env.faults).value;
    var st := AfterRegistration(name, email, hash, deps, env);
    var user := User(env.newId, name, email, hash, [pair.refreshToken]);
    SignedHasNoSpace(AccessSecret(deps.issuer), IdPayload(env.newId, env.now, AccessLifetime), deps.issuer.mac);
    BearerTokenOfHeader(pair.accessToken);
    CachingKeepsBlacklistReads(Redis(map[]), env.newId, pair.accessToken, pair.refreshToken, env.now, env.faults,
                               pair.accessToken, t, later, Access);
    assert IsTokenBlacklisted(st.cache, pair.accessToken, t, later, Access) == Ok(false);
    GeneratedTokensVerify(deps.issuer, env.newId, env.now, env.faults, t);
    assert FindById(st.users, Some(env.newId)) == Some(user);
  }

  /** A user who just registered passes the guard with the access token the
      registration answered with, for its whole 15-minute lifetime. */
  lemma GuardAdmitsRegisteredUser(name: string, email: string, password: string, deps: Deps, env: Env,
                                  t: nat, later: Faults)
    requires name != "" && email != "" && password != ""
    requires RegisterClear(env.faults)
    requires CacheGet !in later && FindUser !in later
    requires env.now <= t < env.now + AccessLifetime
    ensures var s := Register(Init(), Some(name), Some(email), Some(password), deps, env);
            Authenticate(Some(BearerPrefix + s.response.body.accessToken), s.state.users, s.state.cache, deps.issuer, t, later)
            == Next(Profile(env.newId, name, email))
  {
    RegisterFromInit(name, email, password, deps, env);
    RegisteredUserPassesGuard(name, email, HashPassword(deps.kdf, password, env.salt), deps, env, t, later);
  }

  /** While the two secrets differ, the guard never admits a refresh token. */
  lemma GuardRejectsRefreshToken(users: seq<User>, cache: Redis, iss: Issuer, userId: string, issuedAt: nat,
                                 f: Faults, now: nat, later: Faults)
    requires SeparatesSecrets(iss.mac) && AccessSecret(iss) != RefreshSecret(iss)
    requires SignAccess !in f && SignRefresh !in f
    ensures !Authenticate(Some(BearerPrefix + GenerateTokens(iss, userId, issuedAt, f).value.refreshToken),
                          users, cache, iss, now, later).Next?
  {
    var r := GenerateTokens(iss, userId, issuedAt, f).value.refreshToken;
    CrossKindRejected(iss, userId, issuedAt, f, now);
    SignedHasNoSpace(RefreshSecret(iss), IdPayload(userId, issuedAt, RefreshLifetime), iss.mac);
    BearerTokenOfHeader(r);
  }
}

=== FILE: sessions.dfy ===
/** The session coordinator (controller/user.js): Register, Login,
    RefreshToken and Logout, each a step from the state of the user store and the
    cache to a response and the next state. Every external call that can throw is
    decided by the request's fault set; each handler's `try`/`catch` turns a throw
    into the status of the handler's `catch` block, after whatever writes were
    already made. */
module Sessions {
  import opened Wrappers
  import opened Text
  import opened Faults
  import opened Tokens
  import opened Cache
  import opened Users

  /** The cap on a user's stored refresh tokens enforced at login. */
  const MaxRefreshTokens: nat := 5

  /** The claim RefreshToken reads the user id from (`decoded.userId`). */
  const UserIdClaim: string := "userId"

  const MsgAllFieldsRequired: string := "All fields are required"
  const MsgEmailRegistered: string := "Email already registered"
  const MsgCreatedSuffix: string := ", your account was created successfully!"
  const MsgRegisterFailed: string := "Failed to register"
  const MsgFillCredentials: string := "Fill all credentials"
  const MsgInvalidCredentials: string := "Invalid email or password"
  const MsgLoginFailed: string := "Failed to login"
  const MsgRefreshRequired: string := "Refresh token is required"
  const MsgTokenRevoked: string := "Token has been revoked"
  const MsgInvalidRefresh: string := "Invalid refresh token"
  const MsgLoggedOut: string := "Logged out successfully"
  const MsgLogoutFailed: string := "Failed to logout"

  /** The two stores the handlers share. */
  datatype State = State(users: seq<User>, cache: Redis)

  /** What a request draws from outside the stores: the clock, the `_id` and the
      bcrypt salt a new document would get, and the calls that throw. */
  datatype Env = Env(now: nat, newId: string, salt: string, faults: Faults)

  /** The primitives the handlers are configured with. */
  datatype Deps = Deps(issuer: Issuer, kdf: Kdf)

  /** The JSON bodies the handlers send. */
  datatype Body =
    | Failed(msg: string)                                                            // { msg, success: false }
    | Registered(msg: string, user: Profile, accessToken: string, refreshToken: string)
    | LoggedIn(user: Profile, accessToken: string, refreshToken: string)
    | Refreshed(accessToken: string, refreshToken: string)
    | LoggedOut(msg: string)                                                         // { msg, success: true }

  datatype Response = Response(status: nat, body: Body)

  datatype Step = Step(response: Response, state: State)

  function Reject(status: nat, msg: string, st: State): Step {
    Step(Response(status, Failed(msg)), st)
  }

  /** Signing both tokens, saving the user and caching both tokens all succeed:
      the writes every successful Register, Login and RefreshToken makes. */
  predicate IssueClear(f: Faults) {
    SignAccess !in f && SignRefresh !in f && SaveUser !in f && CacheAccessSet !in f && CacheRefreshSet !in f
  }

  /** Every call a successful registration makes succeeds. */
  predicate RegisterClear(f: Faults) {
    BcryptHash !in f && FindUser !in f && CreateUser !in f && IssueClear(f)
  }

  /** Every call a successful login makes succeeds. */
  predicate LoginClear(f: Faults) {
    FindUser !in f && BcryptCompare !in f && IssueClear(f) && SendMail !in f
  }

  /** Every call a successful refresh makes succeeds. */
  predicate RefreshClear(f: Faults) {
    CacheGet !in f && FindUser !in f && IssueClear(f) && BlacklistAccessSet !in f && BlacklistRefreshSet !in f
  }

  /* ---------------------------------------------------------------------------
     Register
     ------------------------------------------------------------------------ */

  /** `POST /sign-up`: the presence check and the password hash. */
  function Register(st: State, name: Option<string>, email: Option<string>, password: Option<string>,
                    deps: Deps, env: Env): (s: Step)
    ensures s.response.status in {201, 400, 500}
    ensures s.response.status != 201 ==> s.response.body.Failed?
    ensures Falsy(name) || Falsy(email) || Falsy(password) ==> s == Reject(400, MsgAllFieldsRequired, st)
    ensures && !Falsy(name) && !Falsy(email) && !Falsy(password)
            && BcryptHash !in env.faults && FindUser !in env.faults
            && FindByEmail(st.users, email.value).Some?
            ==> s == Reject(400, MsgEmailRegistered, st)
    ensures s.response.status == 201 <==>
              && !Falsy(name) && !Falsy(email) && !Falsy(password)
              && RegisterClear(env.faults)
              && FindByEmail(st.users, email.value).None?
              && !HasId(st.users, env.newId)
    ensures s.response.status == 201 ==>
              && s.response.body.Registered?
              && s.response.body.msg == name.value + MsgCreatedSuffix
              && s.response.body.user == Profile(env.newId, name.value, email.value)
              && s.state.users == st.users + [User(env.newId, name.value, email.value,
                                                   HashPassword(deps.kdf, password.value, env.salt),
                                                   [s.response.body.refreshToken])]
    ensures && !Falsy(name) && !Falsy(email) && !Falsy(password) && BcryptHash in env.faults
            ==> s == Reject(500, MsgRegisterFailed, st)
    ensures s.response.status == 400 ==> s.state == st
    ensures s.state != st ==>
              && !Falsy(name) && !Falsy(email) && !Falsy(password)
              && BcryptHash !in env.faults && FindUser !in env.faults && CreateUser !in env.faults
              && FindByEmail(st.users, email.value).None? && !HasId(st.users, env.newId)
              && |s.state.users| == |st.users| + 1
              && s.state.users == st.users + [User(env.newId, name.value, email.value,
                                                   HashPassword(deps.kdf, password.value, env.salt),
                                                   s.state.users[|st.users|].refreshTokens)]
  {
    if Falsy(name) || Falsy(email) || Falsy(password) then Reject(400, MsgAllFieldsRequired, st)
    else if BcryptHash in env.faults then Reject(500, MsgRegisterFailed, st)
    else RegisterHashed(st, name.value, email.value, HashPassword(deps.kdf, password.value, env.salt), deps, env)
  }

  /** Registration once the password is hashed: the duplicate-email check and
      `User.create` with an empty token list. */
  function RegisterHashed(st: State, name: string, email: string, hash: PasswordHash, deps: Deps, env: Env): (s: Step)
    ensures s.response.status in {201, 400, 500}
    ensures s.response.status != 201 ==> s.response.body.Failed?
    ensures FindUser !in env.faults && FindByEmail(st.users, email).Some? ==> s == Reject(400, MsgEmailRegistered, st)
    ensures s.response.status == 201 <==>
              && FindUser !in env.faults && CreateUser !in env.faults && IssueClear(env.faults)
              && FindByEmail(st.users, email).None?
              && !HasId(st.users, env.newId)
    ensures s.response.status == 201 ==>
              && s.response.body.Registered?
              && s.response.body.msg == name + MsgCreatedSuffix
              && s.response.body.user == Profile(env.newId, name, email)
              && s.state.users == st.users + [User(env.newId, name, email, hash, [s.response.body.refreshToken])]
    ensures FindUser in env.faults || (FindByEmail(st.users, email).None? && (CreateUser in env.faults || HasId(st.users, env.newId)))
            ==> s == Reject(500, MsgRegisterFailed, st)
    ensures s.response.status == 400 ==> s.state == st
    ensures s.state != st ==>
              && FindUser !in env.faults && CreateUser !in env.faults
              && FindByEmail(st.users, email).None? && !HasId(st.users, env.newId)
              && |s.state.users| == |st.users| + 1
              && s.state.users == st.users + [User(env.newId, name, email, hash, s.state.users[|st.users|].refreshTokens)]
    ensures && FindUser !in env.faults && CreateUser !in env.faults
            && FindByEmail(st.users, email).None? && !HasId(st.users, env.newId)
            ==> var created := User(env.newId, name, email, hash, []);
                if SignAccess in env.faults || SignRefresh in env.faults || SaveUser in env.faults
                then s == Reject(500, MsgRegisterFailed, State(st.users + [created], st.cache))
                else
                  var pair := GenerateTokens(deps.issuer, env.newId, env.now, env.faults).value;
                  s.state == State(st.users + [created.(refreshTokens := [pair.refreshToken])],
                                   CacheTokens(st.cache, env.newId, pair.accessToken, pair.refreshToken, env.now, env.faults).cache)
  {
    if FindUser in env.faults then Reject(500, MsgRegisterFailed, st)
    else if FindByEmail(st.users, email).Some? then Reject(400, MsgEmailRegistered, st)
    else if CreateUser in env.faults then Reject(500, MsgRegisterFailed, st)
    else
      var created := User(env.newId, name, email, hash, []);
      match Create(st.users, created)
      case None => Reject(500, MsgRegisterFailed, st)
      case Some(users1) =>
        var s := RegisterCreated(State(users1, st.cache), created, name + MsgCreatedSuffix, deps, env);
        if SignAccess in env.faults || SignRefresh in env.faults then s
        else
          SaveAfterCreate(st.users, created, created.(refreshTokens := [GenerateTokens(deps.issuer, env.newId, env.now, env.faults).value.refreshToken]));
          s
  }

  /** Registration once the user document exists: sign a pair, save the refresh
      token as the user's only one, cache both tokens. A failure here keeps the
      created user. */
  function RegisterCreated(st: State, created: User, msg: string, deps: Deps, env: Env): (s: Step)
    ensures s.response.status in {201, 500}
    ensures s.response.status == 500 ==> s.response.body == Failed(MsgRegisterFailed)
    ensures s.response.status == 201 <==> IssueClear(env.faults)
    ensures s.response.status == 201 ==>
              && s.response.body.Registered?
              && s.response.body.msg == msg
              && s.response.body.user == ProfileOf(created)
              && s.state.users == Save(st.users, created.(refreshTokens := [s.response.body.refreshToken]))
    ensures SignAccess in env.faults || SignRefresh in env.faults || SaveUser in env.faults
            ==> s == Reject(500, MsgRegisterFailed, st)
    ensures SignAccess !in env.faults && SignRefresh !in env.faults && SaveUser !in env.faults ==>
              var pair := GenerateTokens(deps.issuer, created.id, env.now, env.faults).value;
              && s.state == State(Save(st.users, created.(refreshTokens := [pair.refreshToken])),
                                  CacheTokens(st.cache, created.id, pair.accessToken, pair.refreshToken, env.now, env.faults).cache)
              && (s.response.status == 201 ==>
                    s.response.body.accessToken == pair.accessToken && s.response.body.refreshToken == pair.refreshToken)
  {
    match GenerateTokens(deps.issuer, created.id, env.now, env.faults)
    case Err(_) => Reject(500, MsgRegisterFailed, st)
    case Ok(pair) =>
      var user := created.(refreshTokens := [pair.refreshToken]);
      if SaveUser in env.faults then Reject(500, MsgRegisterFailed, st)
      else
        var users1 := Save(st.users, user);
        var w := CacheTokens(st.cache, created.id, pair.accessToken, pair.refreshToken, env.now, env.faults);
        if w.result.Err? then Reject(500, MsgRegisterFailed, State(users1, w.cache))
        else Step(Response(201, Registered(msg, ProfileOf(user), pair.accessToken, pair.refreshToken)),
                  State(users1, w.cache))
  }

  /* ---------------------------------------------------------------------------
     Login
     ------------------------------------------------------------------------ */

  /** The refresh-token list after a login: when it already holds five or more
      tokens the oldest is dropped, then the new token is appended. */
  function PushCapped(tokens: seq<string>, token: string): (r: seq<string>)
    ensures |r| >= 1 && r[|r| - 1] == token
    ensures |tokens| < MaxRefreshTokens ==> r[..|r| - 1] == tokens
    ensures |tokens| >= MaxRefreshTokens ==> r[..|r| - 1] == tokens[1..]
    ensures |r| <= MaxRefreshTokens <==> |tokens| <= MaxRefreshTokens
  {
    var kept := if |tokens| >= MaxRefreshTokens then tokens[1..] else tokens;
    assert (kept + [token])[..|kept|] == kept;
    kept + [token]
  }

  /** `POST /login`: the presence check, the lookup and the password check. An
      unknown email and a wrong password get the same answer. */
  function Login(st: State, email: Option<string>, password: Option<string>, deps: Deps, env: Env): (s: Step)
    ensures s.response.status in {200, 400, 500}
    ensures s.response.status != 200 ==> s.response.body.Failed?
    ensures Falsy(email) || Falsy(password) ==> s == Reject(400, MsgFillCredentials, st)
    ensures s.response.status == 400 ==> s.state == st
    ensures && !Falsy(email) && !Falsy(password)
            && (|| FindUser in env.faults
                || (FindByEmail(st.users, email.value).Some? && BcryptCompare in env.faults))
            ==> s == Reject(500, MsgLoginFailed, st)
    ensures s.response.status == 200 <==>
              && !Falsy(email) && !Falsy(password)
              && LoginClear(env.faults)
              && FindByEmail(st.users, email.value).Some?
              && ComparePassword(deps.kdf, password.value, FindByEmail(st.users, email.value).value.password)
    ensures s.response.status == 200 ==>
              && FindByEmail(st.users, email.value).Some?
              && var u := FindByEmail(st.users, email.value).value;
                 && s.response.body.LoggedIn?
                 && s.response.body.user == ProfileOf(u)
                 && s.state.users == Save(st.users, u.(refreshTokens := PushCapped(u.refreshTokens, s.response.body.refreshToken)))
    ensures s.state != st ==>
              && !Falsy(email) && !Falsy(password)
              && FindUser !in env.faults && BcryptCompare !in env.faults
              && FindByEmail(st.users, email.value).Some?
              && ComparePassword(deps.kdf, password.value, FindByEmail(st.users, email.value).value.password)
              && SignAccess !in env.faults && SignRefresh !in env.faults && SaveUser !in env.faults
    ensures && !Falsy(email) && !Falsy(password)
            && FindUser !in env.faults && BcryptCompare !in env.faults
            && FindByEmail(st.users, email.value).Some?
            && ComparePassword(deps.kdf, password.value, FindByEmail(st.users, email.value).value.password)
            && SignAccess !in env.faults && SignRefresh !in env.faults && SaveUser !in env.faults
            ==> var u := FindByEmail(st.users, email.value).value;
                var pair := GenerateTokens(deps.issuer, u.id, env.now, env.faults).value;
                && s.state == State(Save(st.users, u.(refreshTokens := PushCapped(u.refreshTokens, pair.refreshToken))),
                                    CacheTokens(st.cache, u.id, pair.accessToken, pair.refreshToken, env.now, env.faults).cache)
                && (s.response.status == 200 ==> s.response.body == LoggedIn(ProfileOf(u), pair.accessToken, pair.refreshToken))
  {
    if Falsy(email) || Falsy(password) then Reject(400, MsgFillCredentials, st)
    else if FindUser in env.faults then Reject(500, MsgLoginFailed, st)
    else
      match FindByEmail(st.users, email.value)
      case None => Reject(400, MsgInvalidCredentials, st)
      case Some(user) =>
        if BcryptCompare in env.faults then Reject(500, MsgLoginFailed, st)
        else if !ComparePassword(deps.kdf, password.value, user.password) then Reject(400, MsgInvalidCredentials, st)
        else LoginVerified(st, user, deps, env)
  }

  /** Login once the password matched: sign a pair, push the refresh token onto
      the capped list, save, cache both tokens, send the notification mail. The
      mail goes out after the save and the cache writes, so its failure answers
      500 over a state that already holds the new tokens. */
  function LoginVerified(st: State, user: User, deps: Deps, env: Env): (s: Step)
    ensures s.response.status in {200, 500}
    ensures s.response.status == 500 ==> s.response.body == Failed(MsgLoginFailed)
    ensures s.response.status == 200 <==> IssueClear(env.faults) && SendMail !in env.faults
    ensures s.response.status == 200 ==>
              && s.response.body.LoggedIn?
              && s.response.body.user == ProfileOf(user)
              && s.state.users == Save(st.users, user.(refreshTokens := PushCapped(user.refreshTokens, s.response.body.refreshToken)))
    ensures SignAccess in env.faults || SignRefresh in env.faults || SaveUser in env.faults
            ==> s == Reject(500, MsgLoginFailed, st)
    ensures SignAccess !in env.faults && SignRefresh !in env.faults && SaveUser !in env.faults ==>
              var pair := GenerateTokens(deps.issuer, user.id, env.now, env.faults).value;
              && s.state == State(Save(st.users, user.(refreshTokens := PushCapped(user.refreshTokens, pair.refreshToken))),
                                  CacheTokens(st.cache, user.id, pair.accessToken, pair.refreshToken, env.now, env.faults).cache)
              && (s.response.status == 200 ==> s.response.body == LoggedIn(ProfileOf(user), pair.accessToken, pair.refreshToken))
  {
    match GenerateTokens(deps.issuer, user.id, env.now, env.faults)
    case Err(_) => Reject(500, MsgLoginFailed, st)
    case Ok(pair) =>
      var updated := user.(refreshTokens := PushCapped(user.refreshTokens, pair.refreshToken));
      if SaveUser in env.faults then Reject(500, MsgLoginFailed, st)
      else
        var users1 := Save(st.users, updated);
        var w := CacheTokens(st.cache, user.id, pair.accessToken, pair.refreshToken, env.now, env.faults);
        if w.result.Err? then Reject(500, MsgLoginFailed, State(users1, w.cache))
        else if SendMail in env.faults then Reject(500, MsgLoginFailed, State(users1, w.cache))
        else Step(Response(200, LoggedIn(ProfileOf(user), pair.accessToken, pair.refreshToken)), State(users1, w.cache))
  }

  /* ---------------------------------------------------------------------------
     RefreshToken
     ------------------------------------------------------------------------ */

  /** The refresh handler with the claim it reads the user id from as a
      parameter: the presence check, the blacklist check and the signature
      check. Every failure answers 401; controller/user.js:128 reads `decoded.userId`
      (see `RefreshToken`). */
  function RefreshWith(claim: string, st: State, refreshToken: Option<string>, deps: Deps, env: Env): (s: Step)
    ensures s.response.status in {200, 401}
    ensures s.response.status == 401 ==> s.response.body.Failed?
    ensures Falsy(refreshToken) ==> s == Reject(401, MsgRefreshRequired, st)
    ensures !Falsy(refreshToken) && IsTokenBlacklisted(st.cache, refreshToken.value, env.now, env.faults, Refresh) == Ok(true)
            ==> s == Reject(401, MsgTokenRevoked, st)
    ensures !Falsy(refreshToken) && CacheGet in env.faults ==> s == Reject(401, MsgInvalidRefresh, st)
    ensures && !Falsy(refreshToken)
            && IsTokenBlacklisted(st.cache, refreshToken.value, env.now, env.faults, Refresh) == Ok(false)
            && VerifyRefreshToken(deps.issuer, refreshToken.value, env.now).None?
            ==> s == Reject(401, MsgInvalidRefresh, st)
    ensures && !Falsy(refreshToken)
            && IsTokenBlacklisted(st.cache, refreshToken.value, env.now, env.faults, Refresh) == Ok(false)
            && VerifyRefreshToken(deps.issuer, refreshToken.value, env.now).Some?
            && RefreshHolder(claim, st.users, refreshToken.value, VerifyRefreshToken(deps.issuer, refreshToken.value, env.now).value, env).None?
            ==> s == Reject(401, MsgInvalidRefresh, st)
    ensures !Falsy(refreshToken) && VerifyRefreshToken(deps.issuer, refreshToken.value, env.now).None?
            ==> s.state == st && s.response.status == 401
    ensures s.state != st ==>
              && !Falsy(refreshToken)
              && IsTokenBlacklisted(st.cache, refreshToken.value, env.now, env.faults, Refresh) == Ok(false)
              && VerifyRefreshToken(deps.issuer, refreshToken.value, env.now).Some?
              && RefreshHolder(claim, st.users, refreshToken.value, VerifyRefreshToken(deps.issuer, refreshToken.value, env.now).value, env).Some?
    ensures s.response.status == 200 <==>
              && !Falsy(refreshToken)
              && IsTokenBlacklisted(st.cache, refreshToken.value, env.now, env.faults, Refresh) == Ok(false)
              && VerifyRefreshToken(deps.issuer, refreshToken.value, env.now).Some?
              && RefreshHolder(claim, st.users, refreshToken.value, VerifyRefreshToken(deps.issuer, refreshToken.value, env.now).value, env).Some?
              && IssueClear(env.faults) && BlacklistAccessSet !in env.faults && BlacklistRefreshSet !in env.faults
    ensures s.response.status == 200 ==>
              && s.response.body.Refreshed?
              && !Falsy(refreshToken)
              && VerifyRefreshToken(deps.issuer, refreshToken.value, env.now).Some?
              && var holder := RefreshHolder(claim, st.users, refreshToken.value, VerifyRefreshToken(deps.issuer, refreshToken.value, env.now).value, env);
                 && holder.Some?
                 && s.state.users == Save(st.users, holder.value.(refreshTokens := Without(holder.value.refreshTokens, refreshToken.value) + [s.response.body.refreshToken]))
  {
    if Falsy(refreshToken) then Reject(401, MsgRefreshRequired, st)
    else
      var token := refreshToken.value;
      match IsTokenBlacklisted(st.cache, token, env.now, env.faults, Refresh)
      case Err(_) => Reject(401, MsgInvalidRefresh, st)
      case Ok(blacklisted) =>
        if blacklisted then Reject(401, MsgTokenRevoked, st)
        else
          match VerifyRefreshToken(deps.issuer, token, env.now)
          case None => Reject(401, MsgInvalidRefresh, st)
          case Some(decoded) =>
            match RefreshHolder(claim, st.users, token, decoded, env)
            case None => Reject(401, MsgInvalidRefresh, st)
            case Some(user) => RefreshRotate(st, user, token, deps, env)
  }

  /** The user a verified refresh token is accepted for: `User.findById` of the
      claim's value, provided the stored list still holds the token. `None` also
      when the lookup throws (the handler answers 401 either way). */
  function RefreshHolder(claim: string, users: seq<User>, token: string, decoded: Payload, env: Env): (r: Option<User>)
    ensures r.Some? <==>
              && FindUser !in env.faults
              && FindById(users, ClaimValue(decoded.claims, claim)).Some?
              && token in FindById(users, ClaimValue(decoded.claims, claim)).value.refreshTokens
    ensures r.Some? ==> r.value in users && token in r.value.refreshTokens
                        && Some(r.value.id) == ClaimValue(decoded.claims, claim)
  {
    if FindUser in env.faults then None
    else
      match FindById(users, ClaimValue(decoded.claims, claim))
      case None => None
      case Some(user) => if token in user.refreshTokens then Some(user) else None
  }

  /** The rotation once the holder is known: sign a new pair, replace every copy
      of the presented token by the new refresh token, save, cache the pair,
      blacklist the presented token under both families. */
  function RefreshRotate(st: State, user: User, token: string, deps: Deps, env: Env): (s: Step)
    ensures s.response.status in {200, 401}
    ensures s.response.status == 401 ==> s.response.body == Failed(MsgInvalidRefresh)
    ensures s.response.status == 200 <==> IssueClear(env.faults) && BlacklistAccessSet !in env.faults && BlacklistRefreshSet !in env.faults
    ensures s.response.status == 200 ==>
              && s.response.body.Refreshed?
              && s.response.body == Refreshed(GenerateTokens(deps.issuer, user.id, env.now, env.faults).value.accessToken,
                                              GenerateTokens(deps.issuer, user.id, env.now, env.faults).value.refreshToken)
              && s.state.users == Save(st.users, user.(refreshTokens := Without(user.refreshTokens, token) + [s.response.body.refreshToken]))
              && BlacklistTokens(CacheTokens(st.cache, user.id, s.response.body.accessToken, s.response.body.refreshToken,
                                             env.now, env.faults).cache,
                                 token, token, env.now, env.faults).cache == s.state.cache
    ensures SignAccess in env.faults || SignRefresh in env.faults || SaveUser in env.faults
            ==> s == Reject(401, MsgInvalidRefresh, st)
    ensures SignAccess !in env.faults && SignRefresh !in env.faults && SaveUser !in env.faults ==>
              var pair := GenerateTokens(deps.issuer, user.id, env.now, env.faults).value;
              var cached := CacheTokens(st.cache, user.id, pair.accessToken, pair.refreshToken, env.now, env.faults);
              && s.state.users == Save(st.users, user.(refreshTokens := Without(user.refreshTokens, token) + [pair.refreshToken]))
              && s.state.cache == (if cached.result.Err? then cached.cache
                                   else BlacklistTokens(cached.cache, token, token, env.now, env.faults).cache)
  {
    match GenerateTokens(deps.issuer, user.id, env.now, env.faults)
    case Err(_) => Reject(401, MsgInvalidRefresh, st)
    case Ok(pair) =>
      var updated := user.(refreshTokens := Without(user.refreshTokens, token) + [pair.refreshToken]);
      if SaveUser in env.faults then Reject(401, MsgInvalidRefresh, st)
      else
        var users1 := Save(st.users, updated);
        var w1 := CacheTokens(st.cache, user.id, pair.accessToken, pair.refreshToken, env.now, env.faults);
        if w1.result.Err? then Reject(401, MsgInvalidRefresh, State(users1, w1.cache))
        else
          var w2 := BlacklistTokens(w1.cache, token, token, env.now, env.faults);
          if w2.result.Err? then Reject(401, MsgInvalidRefresh, State(users1, w2.cache))
          else Step(Response(200, Refreshed(pair.accessToken, pair.refreshToken)), State(users1, w2.cache))
  }

  /** `POST /refresh-token` as written: the user is looked up by the claim
      `userId`, while issued tokens carry the claim `id`. Only a verifying token
      whose `userId` claim names a stored user holding it can succeed. */
  function RefreshToken(st: State, refreshToken: Option<string>, deps: Deps, env: Env): (s: Step)
    ensures s.response.status == 200 ==>
              && !Falsy(refreshToken)
              && VerifyRefreshToken(deps.issuer, refreshToken.value, env.now).Some?
              && var holder := FindById(st.users, ClaimValue(VerifyRefreshToken(deps.issuer, refreshToken.value, env.now).value.claims, UserIdClaim));
                 holder.Some? && refreshToken.value in holder.value.refreshTokens
  {
    RefreshWith(UserIdClaim, st, refreshToken, deps, env)
  }

  /** `POST /refresh-token` looking the user up by the claim `id` that
      `generateTokens` signs: a success is for the stored user the token's `id`
      claim names, and that user holds the token. */
  function RefreshTokenIntended(st: State, refreshToken: Option<string>, deps: Deps, env: Env): (s: Step)
    ensures s.response.status == 200 ==>
              && !Falsy(refreshToken)
              && VerifyRefreshToken(deps.issuer, refreshToken.value, env.now).Some?
              && var holder := FindById(st.users, ClaimValue(VerifyRefreshToken(deps.issuer, refreshToken.value, env.now).value.claims, IdClaim));
                 holder.Some? && refreshToken.value in holder.value.refreshTokens
  {
    RefreshWith(IdClaim, st, refreshToken, deps, env)
  }

  /* ---------------------------------------------------------------------------
     Logout
     ------------------------------------------------------------------------ */

  /** `POST /logout`. The access token is `authorization?.split(' ')[1]`,
      whatever the scheme; an absent refresh token is interpolated as
      "undefined" into its blacklist key. */
  function Logout(st: State, userId: Option<string>, refreshToken: Option<string>, authorization: Option<string>,
                  env: Env): (s: Step)
    ensures s.response.status in {200, 500}
    ensures s.response.status == 200 ==> s.response.body == LoggedOut(MsgLoggedOut)
    ensures s.response.status == 500 ==> s.response.body == Failed(MsgLogoutFailed)
    ensures FindUser !in env.faults && FindById(st.users, userId).None? ==> s == Step(Response(200, LoggedOut(MsgLoggedOut)), st)
    ensures s.state.cache != st.cache ==>
              && FindById(st.users, userId).Some?
              && authorization.Some? && !Falsy(SecondField(authorization.value))
    ensures s.state != st ==>
              && FindById(st.users, userId).Some?
              && var u := FindById(st.users, userId).value;
                 s.state.users == Save(st.users, u.(refreshTokens := if refreshToken.Some? then Without(u.refreshTokens, refreshToken.value) else u.refreshTokens))
    ensures s.response.status == 200 <==>
              && FindUser !in env.faults
              && (|| FindById(st.users, userId).None?
                  || (&& SaveUser !in env.faults
                      && (|| authorization.None? || Falsy(SecondField(authorization.value))
                          || (BlacklistAccessSet !in env.faults && BlacklistRefreshSet !in env.faults))))
    ensures FindUser in env.faults || SaveUser in env.faults ==> s.state == st
    ensures FindUser !in env.faults && SaveUser !in env.faults && FindById(st.users, userId).Some? ==>
              var u := FindById(st.users, userId).value;
              && s.state.users == Save(st.users, u.(refreshTokens := if refreshToken.Some? then Without(u.refreshTokens, refreshToken.value) else u.refreshTokens))
              && s.state.cache == (if authorization.None? || Falsy(SecondField(authorization.value)) then st.cache
                                   else BlacklistTokens(st.cache, SecondField(authorization.value).value, Interpolate(refreshToken),
                                                        env.now, env.faults).cache)
  {
    if FindUser in env.faults then Reject(500, MsgLogoutFailed, st)
    else
      match FindById(st.users, userId)
      case None => Step(Response(200, LoggedOut(MsgLoggedOut)), st)
      case Some(user) =>
        var kept := if refreshToken.Some? then Without(user.refreshTokens, refreshToken.value) else user.refreshTokens;
        if SaveUser in env.faults then Reject(500, MsgLogoutFailed, st)
        else
          var users1 := Save(st.users, user.(refreshTokens := kept));
          var accessToken := if authorization.Some? then SecondField(authorization.value) else None;
          if Falsy(accessToken) then Step(Response(200, LoggedOut(MsgLoggedOut)), State(users1, st.cache))
          else
            var w := BlacklistTokens(st.cache, accessToken.value, Interpolate(refreshToken), env.now, env.faults);
            if w.result.Err? then Reject(500, MsgLogoutFailed, State(users1, w.cache))
            else Step(Response(200, LoggedOut(MsgLoggedOut)), State(users1, w.cache))
  }
}

=== FILE: text.dfy ===
/** String operations the service relies on: JavaScript's `String.prototype.split`
    and `startsWith`, truthiness and template interpolation of optional request
    fields, and the escaping and decimal layout used by the model's compact token
    form (see module Tokens). */
module Text {
  import opened Wrappers

  /* ---------------------------------------------------------------------------
     JavaScript truthiness and interpolation of an optional string
     ------------------------------------------------------------------------ */

  /** `!x` in JavaScript for a request field that is a string or is absent:
      both `undefined` and the empty string are falsy. */
  predicate Falsy(x: Option<string>) {
    x.None? || x.value == ""
  }

  /** `${x}` in a template literal: an absent value is rendered as "undefined".
      This is the definition; the ensures spell out its two cases. */
  function Interpolate(x: Option<string>): (r: string)
    ensures x.Some? ==> r == x.value
    ensures x.None? ==> r == "undefined"
  {
    match x
    case Some(s) => s
    case None => "undefined"
  }

  /** `s.startsWith(prefix)`. */
  predicate StartsWith(s: string, prefix: string) {
    |prefix| <= |s| && s[..|prefix|] == prefix
  }

  /* ---------------------------------------------------------------------------
     split / join on a one-character separator
     ------------------------------------------------------------------------ */

  /** `s.split(sep)` for a one-character separator: the maximal separator-free
      pieces of `s`, in order, including empty pieces between adjacent
      separators and at either end. There is always at least one piece. */
  function Split(s: string, sep: char): (parts: seq<string>)
    ensures |parts| >= 1
    ensures forall i :: 0 <= i < |parts| ==> sep !in parts[i]
    ensures |parts| == 1 <==> sep !in s
    decreases |s|
  {
    if |s| == 0 then [""]
    else
      var rest := Split(s[1..], sep);
      if s[0] == sep then [""] + rest
      else [[s[0]] + rest[0]] + rest[1..]
  }

  /** `parts.join(sep)`. */
  function Join(parts: seq<string>, sep: char): string
    requires |parts| >= 1
    decreases |parts|
  {
    if |parts| == 1 then parts[0] else parts[0] + [sep] + Join(parts[1..], sep)
  }

  /** A string without the separator is split into itself alone. */
  lemma {:induction false} SplitWithoutSeparator(w: string, sep: char)
    requires sep !in w
    ensures Split(w, sep) == [w]
    decreases |w|
  {
    if |w| > 0 {
      SplitWithoutSeparator(w[1..], sep);
      assert [w[0]] + w[1..] == w;
    }
  }

  /** Splitting distributes over a separator: the pieces of `a + sep + b` are the
      pieces of `a` followed by the pieces of `b`. */
  lemma {:induction false} SplitAround(a: string, b: string, sep: char)
    ensures Split(a + [sep] + b, sep) == Split(a, sep) + Split(b, sep)
    decreases |a|
  {
    var s := a + [sep] + b;
    if |a| == 0 {
      assert s == [sep] + b;
      assert s[1..] == b;
    } else {
      assert s[0] == a[0];
      assert s[1..] == a[1..] + [sep] + b;
      SplitAround(a[1..], b, sep);
    }
  }

  /** Splitting inverts joining when no piece contains the separator. */
  lemma {:induction false} SplitJoin(parts: seq<string>, sep: char)
    requires |parts| >= 1
    requires forall i :: 0 <= i < |parts| ==> sep !in parts[i]
    ensures Split(Join(parts, sep), sep) == parts
    decreases |parts|
  {
    SplitWithoutSeparator(parts[0], sep);
    if |parts| > 1 {
      SplitJoin(parts[1..], sep);
      SplitAround(parts[0], Join(parts[1..], sep), sep);
      assert [parts[0]] + parts[1..] == parts;
    }
  }

  /** Prefixing the first piece with a character prefixes the join with it. */
  lemma JoinConsFirst(c: char, parts: seq<string>, sep: char)
    requires |parts| >= 1
    ensures Join([[c] + parts[0]] + parts[1..], sep) == [c] + Join(parts, sep)
  {
    var q := [[c] + parts[0]] + parts[1..];
    assert q[1..] == parts[1..];
  }

  /** Joining inverts splitting, for every string. */
  lemma {:induction false} JoinSplit(s: string, sep: char)
    ensures Join(Split(s, sep), sep) == s
    decreases |s|
  {
    if |s| > 0 {
      var rest := Split(s[1..], sep);
      JoinSplit(s[1..], sep);
      assert [s[0]] + s[1..] == s;
      if s[0] == sep {
        assert ([""] + rest)[1..] == rest;
      } else {
        JoinConsFirst(s[0], rest, sep);
      }
    }
  }

  /** Joining one more piece appends the separator and that piece. */
  lemma {:induction false} JoinSnoc(parts: seq<string>, last: string, sep: char)
    requires |parts| >= 1
    ensures Join(parts + [last], sep) == Join(parts, sep) + [sep] + last
    decreases |parts|
  {
    if |parts| > 1 {
      JoinSnoc(parts[1..], last, sep);
      assert (parts + [last])[1..] == parts[1..] + [last];
    }
  }

  /** `s.split(' ')[1]`: the second space-separated field, `None` (`undefined`)
      when `s` has no space. */
  function SecondField(s: string): (r: Option<string>)
    ensures r.Some? <==> ' ' in s
    ensures r.Some? ==> ' ' !in r.value
  {
    var parts := Split(s, ' ');
    if |parts| >= 2 then Some(parts[1]) else None
  }

  /** The second field of `scheme + " " + t` is `t` when neither holds a space. */
  lemma SecondFieldAfterScheme(scheme: string, t: string)
    requires ' ' !in scheme && ' ' !in t
    ensures SecondField(scheme + " " + t) == Some(t)
  {
    assert scheme + " " + t == scheme + [' '] + t;
    SplitAround(scheme, t, ' ');
    SplitWithoutSeparator(scheme, ' ');
    SplitWithoutSeparator(t, ' ');
  }

  /** A character that is not the separator and occurs in no piece does not
      occur in the joined string. */
  lemma {:induction false} JoinAvoids(parts: seq<string>, sep: char, c: char)
    requires |parts| >= 1
    requires c != sep
    requires forall i :: 0 <= i < |parts| ==> c !in parts[i]
    ensures c !in Join(parts, sep)
    decreases |parts|
  {
    if |parts| > 1 {
      JoinAvoids(parts[1..], sep, c);
      var j := Join(parts[1..], sep);
      assert Join(parts, sep) == parts[0] + [sep] + j;
    }
  }

  /* ---------------------------------------------------------------------------
     Escaping of one field of the compact token form
     ------------------------------------------------------------------------ */

  /** The escape of one character: backslash, dot and space become two-character
      escapes, every other character stands for itself. */
  function EscapeChar(c: char): (r: string)
    ensures '.' !in r && ' ' !in r
  {
    if c == '\\' then "\\\\"
    else if c == '.' then "\\d"
    else if c == ' ' then "\\s"
    else [c]
  }

  /** The escaped form of a field; it contains neither the field separator '.'
      nor a space, so it survives both `split('.')` and `split(' ')` whole. */
  function Escape(s: string): (r: string)
    ensures '.' !in r && ' ' !in r
    decreases |s|
  {
    if |s| == 0 then "" else EscapeChar(s[0]) + Escape(s[1..])
  }

  /** The character an escape code after a backslash stands for. */
  function EscapeCode(c: char): Option<char> {
    if c == '\\' then Some('\\')
    else if c == 'd' then Some('.')
    else if c == 's' then Some(' ')
    else None
  }

  /** Reads an escaped field back; a dangling or unknown escape, or a raw dot or
      space, makes the field malformed. */
  function Unescape(s: string): Option<string>
    decreases |s|
  {
    if |s| == 0 then Some("")
    else if s[0] == '\\' then
      if |s| == 1 then None
      else
        match (EscapeCode(s[1]), Unescape(s[2..]))
        case (Some(c), Some(t)) => Some([c] + t)
        case _ => None
    else if s[0] == '.' || s[0] == ' ' then None
    else
      match Unescape(s[1..])
      case Some(t) => Some([s[0]] + t)
      case None => None
  }

  /** Reading an escaped character followed by a well-formed rest reads the
      character followed by what the rest reads as. */
  lemma UnescapeEscapeChar(c: char, tail: string, t: string)
    requires Unescape(tail) == Some(t)
    ensures Unescape(EscapeChar(c) + tail) == Some([c] + t)
  {
    var e := EscapeChar(c) + tail;
    if c == '\\' {
      assert e == ['\\', '\\'] + tail;
      assert e[2..] == tail;
    } else if c == '.' {
      assert e == ['\\', 'd'] + tail;
      assert e[2..] == tail;
    } else if c == ' ' {
      assert e == ['\\', 's'] + tail;
      assert e[2..] == tail;
    } else {
      assert e == [c] + tail;
      assert e[1..] == tail;
    }
  }

  /** Every field is read back exactly as it was written. */
  lemma {:induction false} UnescapeEscape(s: string)
    ensures Unescape(Escape(s)) == Some(s)
    decreases |s|
  {
    if |s| > 0 {
      UnescapeEscape(s[1..]);
      UnescapeEscapeChar(s[0], Escape(s[1..]), s[1..]);
      assert [s[0]] + s[1..] == s;
    }
  }

  /** Conversely, a well-formed escaped field is the escape of what it reads as,
      so `Escape` is a bijection onto the well-formed fields. */
  lemma {:induction false} EscapeUnescape(s: string, t: string)
    requires Unescape(s) == Some(t)
    ensures Escape(t) == s
    decreases |s|
  {
    if |s| > 0 {
      if s[0] == '\\' {
        var c := EscapeCode(s[1]).value;
        var t' := Unescape(s[2..]).value;
        EscapeUnescape(s[2..], t');
        assert t == [c] + t';
        assert t[1..] == t';
        assert EscapeChar(c) == s[..2];
        assert s == s[..2] + s[2..];
      } else {
        var t' := Unescape(s[1..]).value;
        EscapeUnescape(s[1..], t');
        assert t == [s[0]] + t';
        assert t[1..] == t';
        assert s == [s[0]] + s[1..];
      }
    }
  }

  /* ---------------------------------------------------------------------------
     Decimal numerals
     ------------------------------------------------------------------------ */

  predicate IsDigit(c: char) {
    '0' <= c <= '9'
  }

  function DigitChar(d: nat): (c: char)
    requires d < 10
    ensures IsDigit(c)
  {
    (48 + d) as char
  }

  function DigitValue(c: char): (d: Option<nat>)
    ensures d.Some? <==> IsDigit(c)
    ensures d.Some? ==> d.value < 10 && DigitChar(d.value) == c
  {
    if IsDigit(c) then Some(c as int - 48) else None
  }

  /** The decimal numeral of `n`, most significant digit first, as JSON writes a
      number: digits only, and no leading zero unless `n` is zero. */
  function Decimal(n: nat): (r: string)
    ensures |r| >= 1
    ensures forall i :: 0 <= i < |r| ==> IsDigit(r[i])
    ensures r[0] == '0' ==> n == 0
    decreases n
  {
    if n < 10 then [DigitChar(n)] else Decimal(n / 10) + [DigitChar(n % 10)]
  }

  /** Reads a decimal numeral; the empty string, a non-digit and a leading zero
      are malformed. */
  function ParseDecimal(s: string): Option<nat>
    decreases |s|
  {
    if |s| == 0 || (|s| > 1 && s[0] == '0') then None
    else
      match DigitValue(s[|s| - 1])
      case None => None
      case Some(d) =>
        if |s| == 1 then Some(d)
        else
          match ParseDecimal(s[..|s| - 1])
          case None => None
          case Some(m) => Some(10 * m + d)
  }

  /** A numeral made of digits contains neither a dot nor a space. */
  lemma DigitsAvoidSeparators(s: string)
    requires forall i :: 0 <= i < |s| ==> IsDigit(s[i])
    ensures '.' !in s && ' ' !in s
  {
  }

  /** Every number is read back from its numeral. */
  lemma {:induction false} ParseDecimalRoundTrip(n: nat)
    ensures ParseDecimal(Decimal(n)) == Some(n)
    decreases n
  {
    if n >= 10 {
      ParseDecimalRoundTrip(n / 10);
      var s := Decimal(n);
      assert s[..|s| - 1] == Decimal(n / 10);
      assert s[|s| - 1] == DigitChar(n % 10);
    }
  }

  /** Conversely, a numeral that reads as `n` is the numeral of `n`: there is
      exactly one way to write each number. */
  lemma {:induction false} DecimalOfParse(s: string, n: nat)
    requires ParseDecimal(s) == Some(n)
    ensures Decimal(n) == s
    decreases |s|
  {
    var d := DigitValue(s[|s| - 1]).value;
    if |s| > 1 {
      var prefix := s[..|s| - 1];
      var m := ParseDecimal(prefix).value;
      DecimalOfParse(prefix, m);
      assert prefix[0] == s[0];
      assert m != 0;
      assert n == 10 * m + d;
      assert n / 10 == m && n % 10 == d;
      assert s == prefix + [s[|s| - 1]];
    }
  }
}

=== FILE: tokens.dfy ===
/** The token issuer (config/token.js): issues an access token and a refresh
    token for a user id, each signed with its own secret and lifetime, and
    verifies a presented token against one secret and the current time.

    A token is a string. The JWT library's encoding is replaced by a compact form
    of the same shape, the signing input followed by '.' and the signature:
        signing input = iat "." exp ("." name "." value)*
    where `iat` and `exp` are decimal numerals and every claim name and value is
    escaped so that it holds neither '.' nor ' '. The HMAC is the parameter
    `mac`: the model does not compute it, it only compares what it returns. */
module Tokens {
  import opened Wrappers
  import opened Text
  import opened Faults

  /** `expiresIn: '15m'` and `expiresIn: '7d'`, in seconds. */
  const AccessLifetime: nat := 15 * 60
  const RefreshLifetime: nat := 7 * 24 * 60 * 60

  /** The fallbacks used when JWT_SECRET / REFRESH_SECRET are unset or empty. */
  const DefaultJwtSecret: string := "your-secret-key"
  const DefaultRefreshSecret: string := "your-refresh-secret-key"

  /** The name of the one claim `generateTokens` signs: `{ id: userId }`. */
  const IdClaim: string := "id"

  datatype Claim = Claim(name: string, value: string)

  /** A decoded token: its custom claims in order, and the registered claims
      `iat` (issued at) and `exp` (expires at), in seconds. */
  datatype Payload = Payload(claims: seq<Claim>, iat: nat, exp: nat)

  /** The keyed MAC that signs the signing input (HS256 in config/token.js). */
  type Mac = (string, string) -> string

  /** The issuer's configuration: the two secret variables of the process
      environment and the MAC. */
  datatype Issuer = Issuer(jwtSecretVar: Option<string>, refreshSecretVar: Option<string>, mac: Mac)

  datatype TokenPair = TokenPair(accessToken: string, refreshToken: string)

  /** `process.env.X || fallback`. This is the definition of the fallback; the
      ensures spell out its two cases for the lemmas that use it. */
  function SecretOr(variable: Option<string>, fallback: string): (s: string)
    ensures !Falsy(variable) ==> s == variable.value
    ensures Falsy(variable) ==> s == fallback
  {
    if Falsy(variable) then fallback else variable.value
  }

  function AccessSecret(iss: Issuer): string {
    SecretOr(iss.jwtSecretVar, DefaultJwtSecret)
  }

  function RefreshSecret(iss: Issuer): string {
    SecretOr(iss.refreshSecretVar, DefaultRefreshSecret)
  }

  /** A MAC under which different secrets never give the same tag for the same
      input (what the cross-secret property needs of HMAC). */
  ghost predicate SeparatesSecrets(mac: Mac) {
    forall k1, k2, m :: k1 != k2 ==> mac(k1, m) != mac(k2, m)
  }

  /* ---------------------------------------------------------------------------
     Layout of the compact form
     ------------------------------------------------------------------------ */

  function ClaimFields(cs: seq<Claim>): (fs: seq<string>)
    ensures |fs| == 2 * |cs|
    ensures forall i :: 0 <= i < |fs| ==> '.' !in fs[i] && ' ' !in fs[i]
    decreases |cs|
  {
    if |cs| == 0 then []
    else [Escape(cs[0].name), Escape(cs[0].value)] + ClaimFields(cs[1..])
  }

  function PayloadFields(p: Payload): (fs: seq<string>)
    ensures |fs| >= 2
    ensures forall i :: 0 <= i < |fs| ==> '.' !in fs[i] && ' ' !in fs[i]
  {
    DigitsAvoidSeparators(Decimal(p.iat));
    DigitsAvoidSeparators(Decimal(p.exp));
    [Decimal(p.iat), Decimal(p.exp)] + ClaimFields(p.claims)
  }

  /** What the MAC covers: the exact text before the signature. */
  function SigningInput(p: Payload): string {
    Join(PayloadFields(p), '.')
  }

  /** `jwt.sign(payload, secret)`: the signing input followed by its tag. */
  function Sign(secret: string, p: Payload, mac: Mac): string {
    SigningInput(p) + "." + Escape(mac(secret, SigningInput(p)))
  }

  function ParseClaims(fs: seq<string>): Option<seq<Claim>>
    decreases |fs|
  {
    if |fs| == 0 then Some([])
    else if |fs| == 1 then None
    else
      match (Unescape(fs[0]), Unescape(fs[1]), ParseClaims(fs[2..]))
      case (Some(n), Some(v), Some(rest)) => Some([Claim(n, v)] + rest)
      case _ => None
  }

  function ParsePayload(fs: seq<string>): Option<Payload> {
    if |fs| < 2 then None
    else
      match (ParseDecimal(fs[0]), ParseDecimal(fs[1]), ParseClaims(fs[2..]))
      case (Some(iat), Some(exp), Some(cs)) => Some(Payload(cs, iat, exp))
      case _ => None
  }

  datatype Decoded = Decoded(signingInput: string, signature: string, payload: Payload)

  /** Splits a presented string into signing input, signature and payload;
      anything not in the compact form is malformed. */
  function Decode(token: string): Option<Decoded> {
    var parts := Split(token, '.');
    if |parts| < 3 then None
    else
      var body := parts[..|parts| - 1];
      match (Unescape(parts[|parts| - 1]), ParsePayload(body))
      case (Some(tag), Some(p)) => Some(Decoded(Join(body, '.'), tag, p))
      case _ => None
  }

  /** `jwt.verify(token, secret)` with the clock at `now`: the payload when the
      token is well formed, its tag is the MAC of its signing input under
      `secret`, and it has not expired (`now < exp`); `None` in every other case,
      the model's `null` -- no case throws. */
  function Verify(token: string, secret: string, mac: Mac, now: nat): (r: Option<Payload>)
    ensures r.Some? ==> now < r.value.exp
  {
    match Decode(token)
    case None => None
    case Some(d) =>
      if d.signature == mac(secret, d.signingInput) && now < d.payload.exp then Some(d.payload)
      else None
  }

  /* ---------------------------------------------------------------------------
     The exported operations of config/token.js
     ------------------------------------------------------------------------ */

  /** The payload `jwt.sign({ id: userId }, secret, { expiresIn })` produces at
      time `now`. */
  function IdPayload(userId: string, now: nat, lifetime: nat): Payload {
    Payload([Claim(IdClaim, userId)], now, now + lifetime)
  }

  /** `generateTokens(userId)`: both tokens, or the error of the signing call
      that threw -- never one token without the other. */
  function GenerateTokens(iss: Issuer, userId: string, now: nat, faults: Faults): (r: Result<TokenPair, Fault>)
    ensures r.Ok? <==> SignAccess !in faults && SignRefresh !in faults
    ensures r.Err? ==> r.error.site in faults && r.error.site in {SignAccess, SignRefresh}
  {
    if SignAccess in faults then Err(Fault(SignAccess))
    else if SignRefresh in faults then Err(Fault(SignRefresh))
    else
      Ok(TokenPair(
        Sign(AccessSecret(iss), IdPayload(userId, now, AccessLifetime), iss.mac),
        Sign(RefreshSecret(iss), IdPayload(userId, now, RefreshLifetime), iss.mac)))
  }

  /** `verifyAccessToken(token)`: what it accepts was signed with the access
      secret and has not expired. */
  function VerifyAccessToken(iss: Issuer, token: string, now: nat): (r: Option<Payload>)
    ensures r.Some? ==> token == Sign(AccessSecret(iss), r.value, iss.mac) && now < r.value.exp
  {
    VerifiedIsSigned(token, AccessSecret(iss), iss.mac, now);
    Verify(token, AccessSecret(iss), iss.mac, now)
  }

  /** `verifyRefreshToken(token)`: what it accepts was signed with the refresh
      secret and has not expired. */
  function VerifyRefreshToken(iss: Issuer, token: string, now: nat): (r: Option<Payload>)
    ensures r.Some? ==> token == Sign(RefreshSecret(iss), r.value, iss.mac) && now < r.value.exp
  {
    VerifiedIsSigned(token, RefreshSecret(iss), iss.mac, now);
    Verify(token, RefreshSecret(iss), iss.mac, now)
  }

  /** `decoded[name]` on a verified payload: the value of the LAST claim with
      that name (JSON.parse keeps the last duplicate), `None` for `undefined`. */
  function ClaimValue(claims: seq<Claim>, name: string): (r: Option<string>)
    ensures r.None? <==> forall i :: 0 <= i < |claims| ==> claims[i].name != name
    ensures r.Some? ==> exists i :: 0 <= i < |claims| && claims[i] == Claim(name, r.value)
                                    && forall j :: i < j < |claims| ==> claims[j].name != name
    decreases |claims|
  {
    if |claims| == 0 then None
    else if claims[|claims| - 1].name == name then Some(claims[|claims| - 1].value)
    else ClaimValue(claims[..|claims| - 1], name)
  }

  /* ---------------------------------------------------------------------------
     Properties
     ------------------------------------------------------------------------ */

  lemma {:induction false} ParseClaimsOfFields(cs: seq<Claim>)
    ensures ParseClaims(ClaimFields(cs)) == Some(cs)
    decreases |cs|
  {
    if |cs| > 0 {
      ParseClaimsOfFields(cs[1..]);
      UnescapeEscape(cs[0].name);
      UnescapeEscape(cs[0].value);
      var fs := ClaimFields(cs);
      assert fs[2..] == ClaimFields(cs[1..]);
      assert [cs[0]] + cs[1..] == cs;
    }
  }

  lemma {:induction false} FieldsOfParseClaims(fs: seq<string>, cs: seq<Claim>)
    requires ParseClaims(fs) == Some(cs)
    ensures ClaimFields(cs) == fs
    decreases |fs|
  {
    if |fs| > 0 {
      var n := Unescape(fs[0]).value;
      var v := Unescape(fs[1]).value;
      var rest := ParseClaims(fs[2..]).value;
      FieldsOfParseClaims(fs[2..], rest);
      EscapeUnescape(fs[0], n);
      EscapeUnescape(fs[1], v);
      assert cs == [Claim(n, v)] + rest;
      assert cs[1..] == rest;
      assert fs == [fs[0], fs[1]] + fs[2..];
    }
  }

  /** The payload layout reads back as the payload it was written from. */
  lemma ParsePayloadOfFields(p: Payload)
    ensures ParsePayload(PayloadFields(p)) == Some(p)
  {
    ParseDecimalRoundTrip(p.iat);
    ParseDecimalRoundTrip(p.exp);
    ParseClaimsOfFields(p.claims);
    var fs := PayloadFields(p);
    assert fs[2..] == ClaimFields(p.claims);
  }

  /** Conversely, a readable payload layout is the layout of what it reads as. */
  lemma FieldsOfParsePayload(fs: seq<string>, p: Payload)
    requires ParsePayload(fs) == Some(p)
    ensures PayloadFields(p) == fs
  {
    DecimalOfParse(fs[0], p.iat);
    DecimalOfParse(fs[1], p.exp);
    FieldsOfParseClaims(fs[2..], p.claims);
    assert fs == [fs[0], fs[1]] + fs[2..];
  }

  /** Decoding a signed token recovers its signing input, tag and payload. */
  lemma {:induction false} DecodeSign(secret: string, p: Payload, mac: Mac)
    ensures Decode(Sign(secret, p, mac)) == Some(Decoded(SigningInput(p), mac(secret, SigningInput(p)), p))
  {
    var fs := PayloadFields(p);
    var tag := mac(secret, SigningInput(p));
    var token := Sign(secret, p, mac);
    assert token == Join(fs, '.') + ['.'] + Escape(tag);
    SplitAround(Join(fs, '.'), Escape(tag), '.');
    SplitJoin(fs, '.');
    SplitWithoutSeparator(Escape(tag), '.');
    var parts := Split(token, '.');
    assert parts == fs + [Escape(tag)];
    assert parts[..|parts| - 1] == fs;
    UnescapeEscape(tag);
    ParsePayloadOfFields(p);
  }

  /** Conversely, whatever decodes is its signing input, a '.', and its escaped
      tag, and the signing input is the layout of the payload read from it. */
  lemma DecodeSound(token: string)
    requires Decode(token).Some?
    ensures var d := Decode(token).value;
            && d.signingInput == SigningInput(d.payload)
            && token == d.signingInput + "." + Escape(d.signature)
  {
    var parts := Split(token, '.');
    var body := parts[..|parts| - 1];
    var last := parts[|parts| - 1];
    var d := Decode(token).value;
    FieldsOfParsePayload(body, d.payload);
    EscapeUnescape(last, d.signature);
    JoinSplit(token, '.');
    assert parts == body + [last];
    JoinSnoc(body, last, '.');
  }

  /** The verifier accepts exactly the unexpired tokens signed with its secret:
      `Verify` returns `p` if and only if the token is `Sign(secret, p)` and
      `now` is before `p.exp`. */
  lemma VerifyExactlySigned(token: string, secret: string, mac: Mac, now: nat, p: Payload)
    ensures Verify(token, secret, mac, now) == Some(p) <==> token == Sign(secret, p, mac) && now < p.exp
  {
    if token == Sign(secret, p, mac) {
      DecodeSign(secret, p, mac);
    }
    if Verify(token, secret, mac, now) == Some(p) {
      DecodeSound(token);
    }
  }

  /** The accepting direction of `VerifyExactlySigned`, for whatever `Verify`
      returns. */
  lemma VerifiedIsSigned(token: string, secret: string, mac: Mac, now: nat)
    ensures Verify(token, secret, mac, now).Some? ==>
              token == Sign(secret, Verify(token, secret, mac, now).value, mac)
  {
    if Verify(token, secret, mac, now).Some? {
      DecodeSound(token);
    }
  }

  /** Different payloads give different tokens (whatever the secrets). */
  lemma SignInjective(s1: string, p1: Payload, s2: string, p2: Payload, mac: Mac)
    requires Sign(s1, p1, mac) == Sign(s2, p2, mac)
    ensures p1 == p2
  {
    DecodeSign(s1, p1, mac);
    DecodeSign(s2, p2, mac);
  }

  /** A signed token has no space, so it survives `split(' ')` whole. */
  lemma SignedHasNoSpace(secret: string, p: Payload, mac: Mac)
    ensures ' ' !in Sign(secret, p, mac)
  {
    JoinAvoids(PayloadFields(p), '.', ' ');
  }

  /** What a token verifies to does not depend on when it is checked, only
      whether it verifies does. */
  lemma VerifiedPayloadStable(token: string, secret: string, mac: Mac, t1: nat, t2: nat)
    requires Verify(token, secret, mac, t1).Some? && Verify(token, secret, mac, t2).Some?
    ensures Verify(token, secret, mac, t1) == Verify(token, secret, mac, t2)
  {
  }

  /** Within its lifetime each issued token verifies under its own secret to a
      payload carrying `id = userId` and issued at the time of issue; from its
      expiry on it verifies to nothing. */
  lemma GeneratedTokensVerify(iss: Issuer, userId: string, now: nat, faults: Faults, t: nat)
    requires SignAccess !in faults && SignRefresh !in faults
    ensures var pair := GenerateTokens(iss, userId, now, faults).value;
            && (t < now + AccessLifetime ==>
                  VerifyAccessToken(iss, pair.accessToken, t) == Some(IdPayload(userId, now, AccessLifetime)))
            && (t >= now + AccessLifetime ==> VerifyAccessToken(iss, pair.accessToken, t).None?)
            && (t < now + RefreshLifetime ==>
                  VerifyRefreshToken(iss, pair.refreshToken, t) == Some(IdPayload(userId, now, RefreshLifetime)))
            && (t >= now + RefreshLifetime ==> VerifyRefreshToken(iss, pair.refreshToken, t).None?)
            && ClaimValue(IdPayload(userId, now, AccessLifetime).claims, IdClaim) == Some(userId)
            && ClaimValue(IdPayload(userId, now, RefreshLifetime).claims, IdClaim) == Some(userId)
  {
    DecodeSign(AccessSecret(iss), IdPayload(userId, now, AccessLifetime), iss.mac);
    DecodeSign(RefreshSecret(iss), IdPayload(userId, now, RefreshLifetime), iss.mac);
  }

  /** While the two secrets differ, neither token of a pair passes the other
      verifier. */
  lemma CrossKindRejected(iss: Issuer, userId: string, now: nat, faults: Faults, t: nat)
    requires SeparatesSecrets(iss.mac)
    requires AccessSecret(iss) != RefreshSecret(iss)
    requires SignAccess !in faults && SignRefresh !in faults
    ensures VerifyAccessToken(iss, GenerateTokens(iss, userId, now, faults).value.refreshToken, t).None?
    ensures VerifyRefreshToken(iss, GenerateTokens(iss, userId, now, faults).value.accessToken, t).None?
  {
    var pa := IdPayload(userId, now, AccessLifetime);
    var pr := IdPayload(userId, now, RefreshLifetime);
    DecodeSign(RefreshSecret(iss), pr, iss.mac);
    DecodeSign(AccessSecret(iss), pa, iss.mac);
    assert iss.mac(AccessSecret(iss), SigningInput(pr)) != iss.mac(RefreshSecret(iss), SigningInput(pr));
    assert iss.mac(RefreshSecret(iss), SigningInput(pa)) != iss.mac(AccessSecret(iss), SigningInput(pa));
  }

  /** With neither secret variable set, the two fallback secrets differ. */
  lemma DefaultSecretsDiffer(iss: Issuer)
    requires Falsy(iss.jwtSecretVar) && Falsy(iss.refreshSecretVar)
    ensures AccessSecret(iss) != RefreshSecret(iss)
  {
    assert |DefaultJwtSecret| != |DefaultRefreshSecret|;
  }

  /** When both variables hold the same secret, a refresh token is accepted by
      `verifyAccessToken` for its whole lifetime of seven days. */
  lemma SharedSecretAcceptsRefreshAsAccess(iss: Issuer, userId: string, now: nat, faults: Faults, t: nat)
    requires !Falsy(iss.jwtSecretVar) && iss.jwtSecretVar == iss.refreshSecretVar
    requires SignAccess !in faults && SignRefresh !in faults
    requires now <= t < now + RefreshLifetime
    ensures VerifyAccessToken(iss, GenerateTokens(iss, userId, now, faults).value.refreshToken, t)
            == Some(IdPayload(userId, now, RefreshLifetime))
  {
    DecodeSign(RefreshSecret(iss), IdPayload(userId, now, RefreshLifetime), iss.mac);
  }

  /** Two issues for one user within the same second give the same pair: the
      signed payload `{ id, iat, exp }` holds nothing else that varies. */
  lemma SameSecondSamePair(iss: Issuer, userId: string, now: nat, f1: Faults, f2: Faults)
    requires SignAccess !in f1 && SignRefresh !in f1 && SignAccess !in f2 && SignRefresh !in f2
    ensures GenerateTokens(iss, userId, now, f1) == GenerateTokens(iss, userId, now, f2)
  {
  }

  /** Tokens issued at different seconds differ. */
  lemma LaterIssueDiffers(iss: Issuer, userId: string, t1: nat, t2: nat, f1: Faults, f2: Faults)
    requires t1 != t2
    requires SignAccess !in f1 && SignRefresh !in f1 && SignAccess !in f2 && SignRefresh !in f2
    ensures GenerateTokens(iss, userId, t1, f1).value.refreshToken != GenerateTokens(iss, userId, t2, f2).value.refreshToken
    ensures GenerateTokens(iss, userId, t1, f1).value.accessToken != GenerateTokens(iss, userId, t2, f2).value.accessToken
  {
    var s := RefreshSecret(iss);
    if Sign(s, IdPayload(userId, t1, RefreshLifetime), iss.mac) == Sign(s, IdPayload(userId, t2, RefreshLifetime), iss.mac) {
      SignInjective(s, IdPayload(userId, t1, RefreshLifetime), s, IdPayload(userId, t2, RefreshLifetime), iss.mac);
    }
    var a := AccessSecret(iss);
    if Sign(a, IdPayload(userId, t1, AccessLifetime), iss.mac) == Sign(a, IdPayload(userId, t2, AccessLifetime), iss.mac) {
      SignInjective(a, IdPayload(userId, t1, AccessLifetime), a, IdPayload(userId, t2, AccessLifetime), iss.mac);
    }
  }
}

=== FILE: users.dfy ===
/** The user store as the controller and the guard use it: Mongoose's
    `User.findOne({ email })`, `User.findById(id)`, `User.create(...)` and
    `user.save()` over the user collection in insertion order, and bcrypt's
    `hash` / `compare` over a key-derivation parameter. */
module Users {
  import opened Wrappers

  /** `bcrypt.hash(password, 10)`. */
  const SaltRounds: nat := 10

  /** bcrypt's derivation of a digest from cost, salt and password; the model
      does not compute it, it only compares what it returns. */
  type Kdf = (nat, string, string) -> string

  /** A stored bcrypt hash: cost, salt and digest. */
  datatype PasswordHash = PasswordHash(rounds: nat, salt: string, digest: string)

  datatype User = User(id: string, name: string, email: string, password: PasswordHash, refreshTokens: seq<string>)

  /** The user as shown to clients: `{ id, name, email }` in a response, and the
      document `.select('-password -refreshTokens')` gives the guard. */
  datatype Profile = Profile(id: string, name: string, email: string)

  function ProfileOf(u: User): Profile {
    Profile(u.id, u.name, u.email)
  }

  /** `bcrypt.compare(password, hash)`. */
  predicate ComparePassword(kdf: Kdf, password: string, hash: PasswordHash) {
    kdf(hash.rounds, hash.salt, password) == hash.digest
  }

  /** `bcrypt.hash(password, 10)` with the salt it draws; the password it was made
      from always compares equal to it. */
  function HashPassword(kdf: Kdf, password: string, salt: string): (h: PasswordHash)
    ensures h.rounds == SaltRounds && h.salt == salt
    ensures ComparePassword(kdf, password, h)
  {
    PasswordHash(SaltRounds, salt, kdf(SaltRounds, salt, password))
  }

  /* ---------------------------------------------------------------------------
     Queries: the FIRST matching document, as a query in natural order returns
     ------------------------------------------------------------------------ */

  function IndexByEmail(users: seq<User>, email: string): (r: Option<nat>)
    ensures r.None? <==> forall i :: 0 <= i < |users| ==> users[i].email != email
    ensures r.Some? ==> r.value < |users| && users[r.value].email == email
                        && forall j :: 0 <= j < r.value ==> users[j].email != email
    decreases |users|
  {
    if |users| == 0 then None
    else if users[0].email == email then Some(0)
    else
      match IndexByEmail(users[1..], email)
      case None => None
      case Some(k) => Some(k + 1)
  }

  function IndexById(users: seq<User>, id: string): (r: Option<nat>)
    ensures r.None? <==> forall i :: 0 <= i < |users| ==> users[i].id != id
    ensures r.Some? ==> r.value < |users| && users[r.value].id == id
                        && forall j :: 0 <= j < r.value ==> users[j].id != id
    decreases |users|
  {
    if |users| == 0 then None
    else if users[0].id == id then Some(0)
    else
      match IndexById(users[1..], id)
      case None => None
      case Some(k) => Some(k + 1)
  }

  /** `User.findOne({ email })`: the first user with exactly that email. */
  function FindByEmail(users: seq<User>, email: string): (r: Option<User>)
    ensures r.None? <==> forall i :: 0 <= i < |users| ==> users[i].email != email
    ensures r.Some? ==> r.value.email == email && r.value in users
  {
    match IndexByEmail(users, email)
    case None => None
    case Some(i) => Some(users[i])
  }

  /** `User.findById(id)`; an absent id (`undefined`) finds nobody. */
  function FindById(users: seq<User>, id: Option<string>): (r: Option<User>)
    ensures r.None? <==> id.None? || forall i :: 0 <= i < |users| ==> users[i].id != id.value
    ensures r.Some? ==> id.Some? && r.value.id == id.value && r.value in users
  {
    match id
    case None => None
    case Some(k) =>
      match IndexById(users, k)
      case None => None
      case Some(i) => Some(users[i])
  }

  predicate HasId(users: seq<User>, id: string) {
    exists i :: 0 <= i < |users| && users[i].id == id
  }

  /* ---------------------------------------------------------------------------
     Writes
     ------------------------------------------------------------------------ */

  /** `User.create(doc)`: appends the document, unless its `_id` is taken, in
      which case the unique `_id` index makes the insert fail. */
  function Create(users: seq<User>, u: User): (r: Option<seq<User>>)
    ensures r.None? <==> HasId(users, u.id)
    ensures r.Some? ==> r.value == users + [u]
    ensures r.Some? ==> FindById(r.value, Some(u.id)) == Some(u)
    ensures r.Some? ==> forall id :: id != u.id ==> FindById(r.value, Some(id)) == FindById(users, Some(id))
  {
    if HasId(users, u.id) then None
    else
      var r := users + [u];
      assert r[|users|] == u;
      assert forall id :: id != u.id ==> IndexById(r, id) == IndexById(users, id) by {
        forall id | id != u.id ensures IndexById(r, id) == IndexById(users, id) {
          IndexByIdAppend(users, u, id);
        }
      }
      Some(r)
  }

  /** `user.save()` on a loaded document: the stored record with that `_id`
      becomes `u`; every other record stays as it was. */
  function Save(users: seq<User>, u: User): (r: seq<User>)
    ensures |r| == |users|
    ensures forall i :: 0 <= i < |users| && users[i].id != u.id ==> r[i] == users[i]
    ensures forall i :: 0 <= i < |users| && users[i].id == u.id ==> r[i] == u
    ensures forall i :: 0 <= i < |users| ==> r[i].id == users[i].id
    ensures HasId(users, u.id) ==> FindById(r, Some(u.id)) == Some(u)
    ensures forall id :: id != u.id ==> FindById(r, Some(id)) == FindById(users, Some(id))
  {
    var r := seq(|users|, i requires 0 <= i < |users| => if users[i].id == u.id then u else users[i]);
    assert forall id :: IndexById(r, id) == IndexById(users, id) by {
      forall id ensures IndexById(r, id) == IndexById(users, id) {
        SameIdsSameIndex(r, users, id);
      }
    }
    r
  }

  /** Saving a document right after creating it replaces the appended record and
      nothing else. */
  lemma SaveAfterCreate(users: seq<User>, created: User, u: User)
    requires !HasId(users, created.id) && u.id == created.id
    ensures Save(users + [created], u) == users + [u]
  {
    var a := Save(users + [created], u);
    var b := users + [u];
    assert |a| == |b|;
    forall i | 0 <= i < |a| ensures a[i] == b[i] {
      if i < |users| {
        assert (users + [created])[i] == users[i];
      } else {
        assert (users + [created])[i] == created;
      }
    }
  }

  /** The first-index query sees only ids. */
  lemma SameIdsSameIndex(a: seq<User>, b: seq<User>, id: string)
    requires |a| == |b|
    requires forall i :: 0 <= i < |a| ==> a[i].id == b[i].id
    ensures IndexById(a, id) == IndexById(b, id)
  {
  }

  /** Appending a user with another id does not change where an id is found. */
  lemma IndexByIdAppend(users: seq<User>, u: User, id: string)
    requires u.id != id
    ensures IndexById(users + [u], id) == IndexById(users, id)
  {
    var r := users + [u];
    assert forall i :: 0 <= i < |users| ==> r[i] == users[i];
  }

  /* ---------------------------------------------------------------------------
     Refresh-token lists
     ------------------------------------------------------------------------ */

  /** `tokens.filter(t => t !== token)`: every occurrence of `token` removed, the
      other entries kept with their multiplicities. */
  function Without(tokens: seq<string>, token: string): (r: seq<string>)
    ensures token !in r
    ensures |r| <= |tokens|
    ensures token !in tokens ==> r == tokens
    decreases |tokens|
  {
    if |tokens| == 0 then []
    else
      var rest := Without(tokens[1..], token);
      assert tokens == [tokens[0]] + tokens[1..];
      if tokens[0] == token then rest else [tokens[0]] + rest
  }

  /** One step of `filter`: the head is kept unless it is the token. */
  lemma {:induction false} WithoutCons(x: string, t: seq<string>, token: string)
    ensures Without([x] + t, token) == (if x == token then [] else [x]) + Without(t, token)
  {
    assert ([x] + t)[1..] == t;
  }

  /** `filter` keeps the order of what it keeps: removing from a concatenation
      removes from each part in place. */
  lemma {:induction false} WithoutAppend(a: seq<string>, b: seq<string>, token: string)
    ensures Without(a + b, token) == Without(a, token) + Without(b, token)
    decreases |a|
  {
    if |a| == 0 {
      assert a + b == b;
    } else {
      var x, t := a[0], a[1..];
      var head := if x == token then [] else [x];
      assert a == [x] + t;
      calc {
        Without(a + b, token);
        { assert a + b == [x] + (t + b); WithoutCons(x, t + b, token); }
        head + Without(t + b, token);
        { WithoutAppend(t, b, token); }
        head + (Without(t, token) + Without(b, token));
        (head + Without(t, token)) + Without(b, token);
        { WithoutCons(x, t, token); }
        Without(a, token) + Without(b, token);
      }
    }
  }

  /** Removing a token that is present shortens the list. */
  lemma {:induction false} WithoutShrinks(tokens: seq<string>, token: string)
    requires token in tokens
    ensures |Without(tokens, token)| < |tokens|
    decreases |tokens|
  {
    if tokens[0] != token {
      WithoutShrinks(tokens[1..], token);
    }
  }

  /** Every other token keeps its number of copies; the token has none left. */
  lemma {:induction false} WithoutCounts(tokens: seq<string>, token: string)
    ensures multiset(Without(tokens, token)) == multiset(tokens)[token := 0]
    decreases |tokens|
  {
    if |tokens| > 0 {
      WithoutCounts(tokens[1..], token);
      WithoutCons(tokens[0], tokens[1..], token);
      assert tokens == [tokens[0]] + tokens[1..];
    }
  }

  lemma WithoutMembership(tokens: seq<string>, token: string, x: string)
    ensures x in Without(tokens, token) <==> x in tokens && x != token
  {
    WithoutCounts(tokens, token);
    assert x in Without(tokens, token) <==> x in multiset(Without(tokens, token));
    assert x in tokens <==> x in multiset(tokens);
  }

  /* ---------------------------------------------------------------------------
     Store invariants
     ------------------------------------------------------------------------ */

  ghost predicate UniqueIds(users: seq<User>) {
    forall i, j :: 0 <= i < j < |users| ==> users[i].id != users[j].id
  }

  ghost predicate UniqueEmails(users: seq<User>) {
    forall i, j :: 0 <= i < j < |users| ==> users[i].email != users[j].email
  }
}

=== FILE: wrappers.dfy ===
/** Failure-carrying values used throughout the model: `Option` for JavaScript's
    `null`/`undefined`, `Result` for a call that either returns or throws. */
module Wrappers {

  datatype Option<+T> = None | Some(value: T)

  datatype Result<+T, +E> = Ok(value: T) | Err(error: E)
}
